=== FILE: README.md ===
# DataLang front end and field selection, in Dafny

DataLang is a small definition language for composing data types from
reusable "terms". A file holds four kinds of item:

- `dictionary Base` and `import module` declarations;
- primitive terms, a `term Name {` line closed by a `}` line;
- composite terms, a `term User has {` line, one directive per line
  (`+Name`, `+LastName`), then a `}` line;
- structs, a `SocialMediaUser {` line, directive lines (`+Name`,
  `-LastName`), then a `}` line.

This is the layout the line parser of src/types.rs reads, and the one the
repository's examples use. The macro's `syn` reader also accepts an item
written on one line, such as `term User has { +Name +LastName }`; the line
parser does not (see `Pipeline.Compile` under "## Left out").

Each body line is a directive: `+X` includes the field, `-X` excludes it, and
`Ns::X` names a namespace. The `datalang!` macro turns every term and struct
into a Rust struct with one `String` field per included reference, named by
the lower-cased reference name. It also adds a `new()` that sets every field
to the empty string.

This project models the following, as pure functions with contracts and
lemmas:

- the records of `src/types.rs`;
- the line parser `DataLangFile::parse_from_str` and `FieldReference::parse_from_str`;
- the queries on a parsed file;
- the fail-fast `validate`;
- the field-selection rule of the macro expansion in `src/lib.rs`.

Modules, in dependency order:

- `Wrappers`: `Option` and `Result`. `:-` plays the part of Rust's `?`.
- `Text`: the `str` operations the parser relies on, on ASCII strings:
  - `trim` and `split_whitespace`;
  - `split_once("::")` and `to_lowercase`.
- `Types`: the data model: `FieldReference`, `DataLangItem`, `DataLangFile`, `ParseError`.
- `FieldRefs`: `FieldReference::parse_from_str`, its rendering and its round trips.
- `Queries`: the read-only queries and `validate`:
  - `dictionaries`, `terms`, `structs`, `imports`;
  - `items_by_type`, `has_item_type`, `get_fields`.
- `Parser`: the line parser. It is one recursive group (`ParseFrom`, `ParseLine`,
  `ParseTerm`, `ParseStruct`) indexed by line number. That is the
  single `while` loop of src/types.rs, with each construct going on to read the rest of the
  file.
- `ParserFacts`: what the parser does with each kind of line. Each fact is
  stated against independent descriptions of the input (where the braces
  and the closing `}` are, which lines are directives) rather than the
  parser's own branches.
- `Emit`: what the macro generates per item, as the type name and its field list.
- `Pipeline`: parse, then emit, plus lemmas about whole files made of a
  header line, directive lines and a `}`.
- `Words` and `Scenarios`: the repository's own example definitions, read
  with the line grammar of src/types.rs and compiled by `Pipeline.Compile`.

The macro itself reads its input with a token-based `syn` parser
(src/lib.rs:9-126), which accepts a different language from the line parser
of src/types.rs. `Pipeline.Compile` models the line grammar of src/types.rs
followed by the macro's field selection. The differences are listed under
"## Left out".

Where the code and its documentation disagree, the model follows the code:

- `validate` reports an empty name as `InvalidSyntax`, not as
  `StructuralError`. Neither `StructuralError` nor `UnexpectedToken` is ever
  produced.
- There is no duplicate detection. Two items with the same name are both
  kept, and `get_fields` returns the first.
- `-X` only drops its own line. It never cancels an earlier `+X`, and
  repeated `+X` lines are not merged.
- A directive that is a bare `+` parses, and gives an empty name.
- Namespaces are recorded but never resolved. The selected field is the
  name part, lower-cased.
- A `term` written without `has` ignores everything up to the next line
  that is exactly `}`. This holds even when the header line already ends
  in `{ }`, so `term A { }` followed by `dictionary D` and a `}` line
  swallows the dictionary (`Pipeline.TermSwallowsLine`,
  `Scenarios.OneLineSwallows`).
- A composite term records no fields only when a line that is exactly `}`
  follows its brace line with nothing but blanks and comments in between, or
  when the file ends first, with only blanks and comments after the brace
  line (`Pipeline.UnclosedTermLine`, `Scenarios.UnclosedTerm`).
  Written on one line, `term X has { }` does not close itself: the lines
  after it, up to the next `}` line, are read as its body. It then gets
  their directives, or fails with `InvalidFieldReference` on the first line
  that is not one (`ParserFacts.CompositeTermFields`,
  `ParserFacts.CompositeTermRejectsLine`). A composite term that does end up
  with no fields is generated like a primitive term, with the single field
  `x`.
- The comment at src/types.rs:341 says only a capitalised first word opens a
  struct. The code accepts any first word that is not `dictionary`,
  `import`, `term`, a `//` comment or a refused word, so `contactinfo {`
  opens a struct (`Scenarios.LowerCaseStruct`).

## Model

| member | source | states |
|---|---|---|
| `Types.FieldReference.FullName` | src/types.rs:102-109 | the full name always ends with the field name; with a namespace it starts with the namespace followed by "::", and without one it is just the name |
| `Text.Trim` | src/types.rs:125 | the result is a slice of the input that neither starts nor ends with whitespace, and everything cut off on either side is whitespace |
| `Text.TrimIdempotent` | src/types.rs:125 | trimming an already trimmed string changes nothing |
| `Text.TrimAfterFirst` | src/types.rs:128-132 | in a string that does not end in whitespace, trimming what follows the first character only removes whitespace at its start |
| `Text.SplitWhitespace` | src/types.rs:238 | every token is non-empty and free of whitespace |
| `Text.SplitWhitespaceEmpty` | src/types.rs:238-242 | a line has no tokens exactly when it is all whitespace |
| `Text.SplitWhitespaceKeepsContent` | src/types.rs:238 | the tokens, glued back together, are exactly the non-whitespace characters of the line, in order |
| `Text.SplitJoin` | src/types.rs:238 | splitting words joined by single spaces gives the words back |
| `Text.FindSep` | src/types.rs:140 | the position found is the first "::" at or after the start point, and none is found only when there is none |
| `Text.SplitOnce` | src/types.rs:140 | a split happens exactly when the text contains "::"; then the text is left part, "::", right part, and the left part contains no "::" |
| `Text.SplitOnceOfJoin` | src/types.rs:140 | joining two parts with "::" and splitting again gives the parts back, provided the left part holds no "::" and does not end in ':' |
| `Text.ToLower` | src/lib.rs:153 | same length, and every character is lowered one by one (ASCII letters only) |
| `FieldRefs.ParseFieldReference` | src/types.rs:124-153 | success exactly when the trimmed input starts with `+` or `-`; `+` gives included, `-` excluded; otherwise `InvalidFieldReference` carrying the untrimmed input and the fixed reason; a namespace exactly when the text after the sign has "::", split at the first one, both parts trimmed; otherwise the whole rest is the name |
| `FieldRefs.ParsedExclusion` | src/types.rs:90-94 | `is_excluded` of a parsed reference holds exactly when the trimmed directive starts with `-` |
| `FieldRefs.ParsedNamespace` | src/types.rs:111-121 | `has_namespace` of a parsed reference holds exactly when the text after the sign contains "::", and the namespace is then the trimmed text before the first one |
| `FieldRefs.AfterSignTrimsStartOnly` | src/types.rs:128-132 | the second `trim`, applied after the sign, only removes whitespace between the sign and the name, since the trimmed input already ends in a non-whitespace character |
| `FieldRefs.SplitReference` | src/types.rs:139-152 | splitting keeps the sign and gives a namespace exactly when there is a "::"; the namespace and name are then the trimmed parts around the first one; otherwise the whole text is the name |
| `FieldRefs.SplitRenderable` | src/types.rs:140-152 | splitting the full name of a whitespace-free reference whose separator is the first "::" recovers the reference |
| `FieldRefs.ParseRender` | src/types.rs:124-153 | parsing the directive line written for a reference (sign then full name) gives the reference back |
| `FieldRefs.SplitReferenceKeepsText` | src/types.rs:140-152 | the full name of the split reference is the text that was split |
| `FieldRefs.ParseSignedWord` | src/types.rs:128-131 | a sign followed by a whitespace-free word parses with that sign and the word split at its first "::" |
| `FieldRefs.FullNameRoundTrip` | src/types.rs:104-109 | for both signs, parsing a signed whitespace-free word and printing its full name gives the word back |
| `Queries.TagIsItemType` | src/types.rs:197-202 | every item belongs to one of the four type names `items_by_type` knows |
| `Queries.FilterTag` | src/types.rs:195-205 | the items kept are exactly those of the named kind |
| `Queries.FilterTagAppend` | src/types.rs:195-205 | filtering keeps file order: the result for a concatenation is the results for each part, one after the other |
| `Queries.ItemsByType` | src/types.rs:193-205 | an item is returned exactly when it is in the file and of the named kind; an unknown type name returns nothing |
| `Queries.HasItemType` | src/types.rs:207-211 | true exactly when some item of the file is of the named kind |
| `Queries.Dictionaries` | src/types.rs:157-164 | a name is listed exactly when the file declares a dictionary of that name |
| `Queries.Terms` | src/types.rs:166-173 | a (name, references) pair is listed exactly when the file holds that term |
| `Queries.Structs` | src/types.rs:175-182 | a (name, references) pair is listed exactly when the file holds that struct |
| `Queries.Imports` | src/types.rs:184-191 | a module is listed exactly when the file imports it |
| `Queries.Idents` | src/types.rs:157-164 | one identifier per item of the kind, in order, each the identifier that item declares |
| `Queries.EntriesMatchFilter` | src/types.rs:166-182 | `terms` and `structs` return one name-and-references pair per term or struct, in file order |
| `Queries.KindQueriesPartition` | src/types.rs:157-191 | the four kind filters together return exactly as many items as the file holds, so no item is counted twice or missed |
| `Queries.QueriesCoverFile` | src/types.rs:157-191 | `dictionaries`, `terms`, `structs` and `imports` together return as many entries as the file has items |
| `Queries.FindEntity` | src/types.rs:215-220 | the position found is the first term or struct with the name; none is found only when there is none |
| `Queries.GetFields` | src/types.rs:213-221 | nothing exactly when no term or struct has the name; otherwise the references of the first one that does; dictionaries and imports never match |
| `Queries.ValidateFrom` | src/types.rs:423-457 | success exactly when every identifier from the start point on is non-empty; otherwise the kind-specific `InvalidSyntax` for the first item with an empty one |
| `Queries.Validate` | src/types.rs:422-458 | success exactly when no item has an empty identifier; otherwise the error names the first offending item's kind |
| `Parser.FindTermBrace` | src/types.rs:276-295 | the line found holds a `{` and only blank or `has` lines come before it |
| `Parser.FindStructBrace` | src/types.rs:370-384 | the line found is the first one holding a `{`; none is found only when no later line has one |
| `Parser.FindClose` | src/types.rs:326-334 | the first line that is exactly `}`, or the end of the file when there is none |
| `Parser.SuggestionsAreRefused` | src/types.rs:346-361 | a suggestion is only offered for a word in the refused list, and it always names a form of `term` or `import` |
| `Parser.ParseBody` | src/types.rs:304-323 | the body ends where the first `}` line is; every line kept opens with a sign; the only failure is `InvalidFieldReference` |
| `Parser.ParseDirectives` | src/types.rs:312-314 | one reference per directive line, in order, each the one its own line parses to |
| `Parser.ParseDirectivesEach` | src/types.rs:312-314 | each reference of a body is what its own line parses to, and it is included exactly when the line starts with `+` |
| `Parser.SignedLineParses` | src/types.rs:313-314 | a line that starts with a sign always parses, so the `?` on it never fires |
| `Parser.ParseFrom` | src/types.rs:229-243 | every item recorded declares a single non-empty, whitespace-free word, and no struct is named by a refused word |
| `Parser.ParseLine` | src/types.rs:244-264 | the same well-formedness for the items read from one line on |
| `Parser.ParseTerm` | src/types.rs:265-338 | the same well-formedness for a term and what follows it |
| `Parser.ParseStruct` | src/types.rs:339-415 | the same well-formedness for a struct and what follows it |
| `Parser.TrimLines` | src/types.rs:230 | one line per input line, and none of them starts or ends with whitespace |
| `Parser.TrimLinesIdempotent` | src/types.rs:230-396 | trimming the trimmed lines again changes nothing, so trimming every line once up front reads the same as the source trimming a line each time it looks at it (lines 230, 286, 291, 308, 329, 378, 396) |
| `Parser.Parse` | src/types.rs:223-420 | whatever parses is well formed, and it always passes `validate` |
| `ParserFacts.FirstWord` | src/types.rs:233 | a trimmed line is a `//` comment exactly when its first word starts with `//` |
| `ParserFacts.NotSkippable` | src/types.rs:232-236 | a line whose first word is not a comment is neither blank nor skipped |
| `ParserFacts.SkippedLine` | src/types.rs:232-236 | a blank or comment line contributes nothing and parsing goes on with the next line |
| `ParserFacts.SkippedLinesContributeNothing` | src/types.rs:232-242 | a run of blank and comment lines is parsed as if it were absent |
| `ParserFacts.DeclarationLine` | src/types.rs:245-264 | a `dictionary` or `import` line adds exactly one item holding its second word, before the items of the lines after it; without a second word it is `MissingIdentifier` with the keyword's message |
| `ParserFacts.DeclarationsInOrder` | src/types.rs:229-264 | a file of declarations, blanks and comments parses to one item per declaration, in source order |
| `ParserFacts.ReservedWordRejected` | src/types.rs:342-368 | a line whose first word is refused fails with `InvalidKeyword` carrying that word and its suggestion |
| `ParserFacts.RefusedWordIsPlain` | src/types.rs:356-361 | every refused word is a lower-case word that is not `dictionary`, `import` or `term`, so such a line always reaches the refusal |
| `ParserFacts.FindTermBraceAt` | src/types.rs:284-294 | the brace search stops on the first `{` line when only blank and `has` lines come before it |
| `ParserFacts.TermBraceFound` | src/types.rs:277-295 | a term's brace is on its header line if the header has one, and otherwise on the line the search describes |
| `ParserFacts.FindTermBraceFails` | src/types.rs:284-294 | the brace search gives up at the first line that is neither blank, nor `has`, nor holds a `{`, or at the end of the file |
| `ParserFacts.StructBraceFound` | src/types.rs:371-384 | a struct's brace is on the first line from its header on that holds one, whatever comes before |
| `ParserFacts.FindCloseAt` | src/types.rs:326-333 | the close search ends on the first line that is exactly `}` |
| `ParserFacts.BodyParsesDirectives` | src/types.rs:305-324 | a body made of directives, blanks and comments yields exactly its directive lines, in order, and ends on the `}` line |
| `ParserFacts.BodyRejectsLine` | src/types.rs:312-320 | the first body line before the `}` that is neither blank, a comment nor a directive fails with `InvalidFieldReference` carrying that line |
| `ParserFacts.BodyPassesFailure` | src/types.rs:307-323 | an error found further down a body is passed on unchanged |
| `ParserFacts.TermWithoutName` | src/types.rs:265-270 | `term` alone fails with `MissingIdentifier("Expected term name")` |
| `ParserFacts.BodyEntity` | src/types.rs:393-414 | a body of directives closed on a line gives the entity those references, and parsing resumes after that line |
| `ParserFacts.BodyEntityFails` | src/types.rs:400-408 | a body with a non-directive line makes the entity fail with `InvalidFieldReference` |
| `ParserFacts.PrimitiveTermSkipsBody` | src/types.rs:325-337 | a term without `has` records no references, skips every line up to its first `}` line whatever they hold, and parsing resumes after it |
| `ParserFacts.CompositeTermFields` | src/types.rs:304-337 | a term with `has` records the references of its directive lines, in order, and parsing resumes after its `}` line |
| `ParserFacts.CompositeTermRejectsLine` | src/types.rs:312-320 | a composite term with a non-directive body line fails with `InvalidFieldReference` carrying that line |
| `ParserFacts.TermWithoutBrace` | src/types.rs:276-301 | a term whose brace search gives up fails with `InvalidSyntax` naming the term |
| `ParserFacts.StructFields` | src/types.rs:392-414 | a struct records the references of its directive lines, in order, and parsing resumes after its `}` line |
| `ParserFacts.StructRejectsLine` | src/types.rs:400-408 | a struct with a non-directive body line fails with `InvalidFieldReference` carrying that line |
| `ParserFacts.StructWithoutBrace` | src/types.rs:370-390 | a struct header with no `{` on it or on any later line fails with `InvalidSyntax` naming the struct |
| `Emit.EmitItem` | src/lib.rs:142-246 | dictionaries and imports generate no type; terms and structs generate exactly one, under their own name |
| `Emit.New` | src/lib.rs:162-167 | `new()` has one entry per field, in order, each holding "" |
| `Emit.Included` | src/lib.rs:173-175 | a reference is kept exactly when it is in the list and marked `+` |
| `Emit.SelectFields` | src/lib.rs:173-186 | the fields are the included references' names, lower-cased, one for one and in order |
| `Emit.SelectFieldsMembership` | src/lib.rs:212-224 | a field is generated exactly when some included reference lower-cases to it |
| `Emit.SelectFieldsAppend` | src/lib.rs:212-224 | field order follows directive order |
| `Emit.ExcludedContributesNothing` | src/lib.rs:212-214 | removing an excluded reference, wherever it stands, changes nothing; `-X` never cancels an earlier `+X` |
| `Emit.NamespaceIrrelevant` | src/lib.rs:215-223 | two directive lists that agree on every sign and name give the same fields, whatever their namespaces |
| `Emit.NoDeduplication` | src/lib.rs:173-186 | `+X +X` gives the field twice, and `+X -X` still gives it once |
| `Emit.PrimitiveTermField` | src/lib.rs:150-168 | a term without references gets one field, its own name lower-cased |
| `Emit.Entities` | src/lib.rs:142-148 | the entities of a file are exactly its terms and structs |
| `Emit.EmitFile` | src/lib.rs:142-251 | one generated type per term or struct, in item order, each the one its item generates |
| `Emit.EmitFileAppend` | src/lib.rs:142-251 | generation follows item order: the types of a concatenation are the types of each part, one after the other |
| `Emit.NewFieldsAreEmpty` | src/lib.rs:237-242 | in a fresh instance every field of the type reads as "", and no other name is a field |
| `Pipeline.Compile` | src/lib.rs:137-254 | compilation succeeds exactly when parsing does and passes a parse error on unchanged; it yields one type per term or struct, in item order, each the one that item generates |
| `Pipeline.CompileEntity` | src/lib.rs:149-245 | a file that parses to one struct, or to one term with references, compiles to one type with the fields its references select |
| `Pipeline.SelectIncluded` | src/lib.rs:173-186 | references that are all included give their names, lower-cased, one for one |
| `Pipeline.RenderSigned` | src/types.rs:313 | every directive line written for a reference opens with its sign and is not a `}` line |
| `Pipeline.ParseRenderAll` | src/types.rs:312-314 | reading back the directive lines written for a list of references gives the list back |
| `Pipeline.SignedLinesAreDirectives` | src/types.rs:312-314 | lines that all open with a sign are all directives, read in order |
| `Pipeline.CompositeTermBlock` | src/types.rs:265-337 | `term N has {`, renderable directive lines and `}` are read as one composite term with exactly those references |
| `Pipeline.StructBlock` | src/types.rs:339-415 | `N {`, renderable directive lines and `}` are read as one struct with exactly those references |
| `Pipeline.ParseTermBlock` | src/types.rs:223-337 | a file holding one such term block parses to that term alone |
| `Pipeline.UnclosedTermLine` | src/types.rs:302-337 | a `term N has {` line with no line after it is the term with no fields: the body loop runs off the end of the file and the term is still recorded |
| `Pipeline.ParseUnclosedTerm` | src/types.rs:223-337 | a file holding only a trimmed `term N has {` line parses to that term with no fields |
| `Pipeline.ParseStructBlock` | src/types.rs:223-415 | a file holding one such struct block parses to that struct alone |
| `Pipeline.TermThenDeclaration` | src/types.rs:244-337 | a primitive term closed by `}` and followed by a declaration parses to both, in order |
| `Pipeline.DeclarationThenTerm` | src/types.rs:244-337 | a declaration followed by a primitive term closed by `}` parses to both, in order |
| `Pipeline.TermSwallowsLine` | src/types.rs:325-335 | any line between a primitive term's header and the next `}` line is skipped, even a declaration, and even when the header already ends in `}` |
| `Pipeline.RefusedLine` | src/types.rs:342-368 | a one-line file whose first word is refused fails with that word and its suggestion |
| `Pipeline.CapitalWord` | src/types.rs:339-363 | a capitalised word is neither a keyword, nor a comment, nor refused |
| `Pipeline.CapitalHeader` | src/types.rs:339-343 | a line that starts with a capitalised word starts a struct |
| `Scenarios.UserParses` | examples/basic_usage.rs:19-23 | the composite term `User` parses to a term with its three included references |
| `Scenarios.UnclosedTerm` | src/types.rs:302-337 | a file that ends right after `term User has {` holds `User` with no fields |
| `Scenarios.UserFields` | dirctionary_tests/tests/base.rs:20-30 | `User` gets the fields `name`, `lastname`, `birthdate`, in that order |
| `Scenarios.SocialParses` | examples/basic_usage.rs:25-29 | the struct `SocialMediaUser` parses to a struct with its three included references |
| `Scenarios.SocialFields` | dirctionary_tests/tests/modular.rs:32-43 | `SocialMediaUser` gets the fields `name`, `birthdate`, `handle`, in that order |
| `Scenarios.OnlyUserHasLastName` | dirctionary_tests/tests/modular.rs:45-68 | `User` has a `lastname` field and `SocialMediaUser` has none |
| `Scenarios.MinimalParses` | examples/basic_usage.rs:31-34 | a struct with an excluded reference keeps that reference in its parsed form |
| `Scenarios.MinimalFields` | examples/basic_usage.rs:31-34 | `MinimalUser { +Name -LastName }` gets the single field `name` |
| `Scenarios.BaseParses` | examples/basic_usage.rs:5-8 | `dictionary Base` followed by the primitive term `Name` parses to the dictionary and then the term, in file order |
| `Scenarios.BaseFields` | dirctionary_tests/tests/base.rs:7-17 | the primitive term `Name` gets the single field `name`, and the dictionary generates nothing |
| `Scenarios.FnRefused` | src/types.rs:346-368 | `fn main() {` is refused, with `term` suggested |
| `Scenarios.UseRefused` | src/types.rs:346-368 | `use std::fmt;` is refused, with `import` suggested |
| `Scenarios.ImplRefused` | src/types.rs:356-368 | `impl User {` is refused, with no suggestion |
| `Scenarios.LowerCaseStruct` | src/types.rs:339-414 | a lower-case first word that is not a keyword or refused, `contactinfo {`, opens a struct of that name |
| `Scenarios.OneLineSwallows` | src/types.rs:325-335 | `term Name { }` on one line, then `dictionary Base`, then `}` parses to the term alone |

## Left out

- Pipeline.Compile: it models the line grammar of src/types.rs, not the
  `syn` parser (src/lib.rs:9-126) that `datalang!` uses at src/lib.rs:138.
  The two accept different languages:
  - `syn` reads a one-line `term Name { }` as complete, so the items after
    it are kept. The line parser skips to the next `}` line.
  - `syn` reads `+Name +LastName` on one line as two references. The line
    parser reads it as one reference named `Name +LastName`.
  - `syn` accepts refused words that are not Rust keywords (`class`,
    `spec`, `test`, ...) as struct names. The line parser refuses them.
  - `syn` rejects `+A::B::C` and a bare `+`. The line parser gives the
    names `B::C` and "".
  - `syn` rejects `term X foo {`. The line parser reads it as a primitive
    term.
  - `syn` has no `validate` step and no refused-word list.
  Token-level parsing with `syn` is outside the string model used here.
- Token generation (`quote!`, `syn::Ident::new`, `TokenStream`). The model
  keeps only the generated type's name and field list. A name that is not a
  valid Rust identifier would make `Ident::new` panic; that is not modelled.
- The `cargo:warning` diagnostics printed for dictionaries and imports.
  They are I/O.
- `derive_datalang` (src/lib.rs:256-271). It is outside the parsing and
  selection core.
- The attribute form (`#[length < 10]`), the `trait User` line and
  `validate_name`. They appear only in examples/test_macro.rs, and no source
  file here implements them.
- build.rs. It reads `.txt` files from dirctionary_tests/text_definitions and
  writes each one, indented, into a `datalang! { ... }` wrapper. It never
  calls `parse_from_str`. It is file I/O only.
- `Display` for `ParseError` (src/types.rs:58-79). This is message
  formatting only.
- `FieldReference::namespace()` and `field_name()` are plain accessors. The
  model reads the record fields directly. `FieldRefs.ParsedNamespace` states
  what `namespace()` holds after parsing.
- Non-ASCII text. `trim`, `split_whitespace` and `to_lowercase` are
  modelled for ASCII only. Unicode whitespace and case mapping are left out.
- `Parser.ParseFrom`, `Parser.ParseLine`, `Parser.ParseTerm`, `Parser.ParseStruct`:
  their own contracts only state well-formedness. What each line produces is
  stated by the `ParserFacts` lemmas, since a full contract on the recursive
  group itself is too costly for the verifier.
- `input.lines()` is not modelled. The parser takes the file already split
  into lines.
- Scenarios.MinimalParses, Scenarios.MinimalFields: the example's
  `MinimalUser` has only `+Name`. The scenario adds `-LastName` so that it
  also shows an exclusion.

=== FILE: emit.dfy ===
/** The field-selection rule of the `datalang!` expansion (src/lib.rs). For
    each item it decides whether a type is generated and which `String`
    fields that type has; the constructor sets each field to "". Token
    generation itself is not modelled, only the resulting field lists. */
module Emit {

  import opened Wrappers
  import opened Text
  import opened Types

  /** A generated type: its name and its string fields, in declaration order. */
  datatype TypeDef = TypeDef(name: string, fields: seq<string>)

  /** The references of `refs` that are included, in order: a reference is
      kept exactly when it is in the list and marked `+`. */
  function Included(refs: seq<FieldReference>): (r: seq<FieldReference>)
    ensures forall f :: f in r <==> f in refs && f.isIncluded
  {
    if |refs| == 0 then []
    else
      assert refs == [refs[0]] + refs[1..];
      (if refs[0].isIncluded then [refs[0]] else []) + Included(refs[1..])
  }

  /** The fields a directive list selects: each included reference gives the
      lower-cased name, ignoring its namespace. */
  function SelectFields(refs: seq<FieldReference>): (r: seq<string>)
    ensures |r| == |Included(refs)|
    ensures forall k :: 0 <= k < |r| ==> r[k] == ToLower(Included(refs)[k].name)
  {
    if |refs| == 0 then []
    else (if refs[0].isIncluded then [ToLower(refs[0].name)] else []) + SelectFields(refs[1..])
  }

  /** What one item generates. Dictionaries and imports generate nothing. A
      term without fields is primitive: one field, its own name lower-cased.
      A term with fields, or any struct, gets the fields its directives
      select. Both kinds of entity keep their own name as the type name. */
  function EmitItem(item: DataLangItem): (r: Option<TypeDef>)
    ensures r.None? <==> item.Dictionary? || item.Import?
    ensures r.Some? ==> r.value.name == item.name
  {
    match item
    case Dictionary(_) => None
    case Import(_) => None
    case Term(name, fields) =>
      if |fields| == 0 then Some(TypeDef(name, [ToLower(name)]))
      else Some(TypeDef(name, SelectFields(fields)))
    case Struct(name, fields) => Some(TypeDef(name, SelectFields(fields)))
  }

  /** The terms and structs of `items`, in order. */
  function Entities(items: seq<DataLangItem>): (r: seq<DataLangItem>)
    ensures forall x :: x in r <==> x in items && x.IsEntity()
  {
    if |items| == 0 then []
    else
      assert items == [items[0]] + items[1..];
      (if items[0].IsEntity() then [items[0]] else []) + Entities(items[1..])
  }

  /** Every generated type of a file, in item order: exactly one per term or
      struct, and none for dictionaries and imports. */
  function EmitFile(items: seq<DataLangItem>): (r: seq<TypeDef>)
    ensures |r| == |Entities(items)|
    ensures forall k :: 0 <= k < |r| ==> EmitItem(Entities(items)[k]) == Some(r[k])
  {
    if |items| == 0 then []
    else
      match EmitItem(items[0])
      case None => EmitFile(items[1..])
      case Some(t) => [t] + EmitFile(items[1..])
  }

  /** A constructed instance: each field paired with its value. */
  type Instance = seq<(string, string)>

  /** `new()`: every field of the type, in order, holding "". */
  function New(fields: seq<string>): (inst: Instance)
    ensures |inst| == |fields|
    ensures forall k :: 0 <= k < |inst| ==> inst[k].0 == fields[k] && inst[k].1 == ""
  {
    if |fields| == 0 then [] else [(fields[0], "")] + New(fields[1..])
  }

  /** The value of the first field of `inst` named `field`. */
  function Lookup(inst: Instance, field: string): Option<string> {
    if |inst| == 0 then None
    else if inst[0].0 == field then Some(inst[0].1)
    else Lookup(inst[1..], field)
  }

  // ---------------------------------------------------------------------------
  // Properties of the selection rule

  /** A position at which `e` occurs in `s`. */
  lemma IndexOf<T>(s: seq<T>, e: T) returns (j: nat)
    requires e in s
    ensures j < |s| && s[j] == e
  {
    j :| 0 <= j < |s| && s[j] == e;
  }

  /** A field is selected exactly when some included reference lower-cases
      to it. */
  lemma SelectFieldsMembership(refs: seq<FieldReference>, x: string)
    ensures x in SelectFields(refs) <==> exists k :: 0 <= k < |refs| && refs[k].isIncluded && ToLower(refs[k].name) == x
  {
    var fs, inc := SelectFields(refs), Included(refs);
    if x in fs {
      var j :| 0 <= j < |fs| && fs[j] == x;
      assert inc[j] in inc;
      var k := IndexOf(refs, inc[j]);
    }
    if exists k :: 0 <= k < |refs| && refs[k].isIncluded && ToLower(refs[k].name) == x {
      var k :| 0 <= k < |refs| && refs[k].isIncluded && ToLower(refs[k].name) == x;
      assert refs[k] in inc;
      var j := IndexOf(inc, refs[k]);
      assert fs[j] == x;
    }
  }

  /** Selection respects source order: the fields of a concatenation are
      the fields of each part, one after the other. */
  lemma {:induction false} SelectFieldsAppend(a: seq<FieldReference>, b: seq<FieldReference>)
    ensures SelectFields(a + b) == SelectFields(a) + SelectFields(b)
    decreases |a|
  {
    if |a| > 0 {
      assert (a + b)[0] == a[0];
      assert (a + b)[1..] == a[1..] + b;
      SelectFieldsAppend(a[1..], b);
      assert SelectFields(a + b) == (if a[0].isIncluded then [ToLower(a[0].name)] else []) + SelectFields(a[1..] + b);
    } else {
      assert a + b == b;
    }
  }

  /** An excluded reference only drops itself: wherever it stands, removing
      it changes nothing, so `-X` never cancels an earlier `+X`. */
  lemma ExcludedContributesNothing(a: seq<FieldReference>, x: FieldReference, b: seq<FieldReference>)
    requires !x.isIncluded
    ensures SelectFields(a + [x] + b) == SelectFields(a + b)
  {
    assert [x][1..] == [];
    assert SelectFields([x]) == [] + SelectFields([]);
    SelectFieldsAppend(a + [x], b);
    SelectFieldsAppend(a, [x]);
    SelectFieldsAppend(a, b);
    assert SelectFields(a + [x]) == SelectFields(a);
  }

  /** Two directive lists that agree on every sign and name select the same
      fields, whatever their namespaces. */
  lemma {:induction false} NamespaceIrrelevant(refs: seq<FieldReference>, refs': seq<FieldReference>)
    requires |refs| == |refs'|
    requires forall k :: 0 <= k < |refs| ==> refs[k].isIncluded == refs'[k].isIncluded && refs[k].name == refs'[k].name
    ensures SelectFields(refs) == SelectFields(refs')
    decreases |refs|
  {
    if |refs| > 0 {
      NamespaceIrrelevant(refs[1..], refs'[1..]);
    }
  }

  /** Repeated directives are kept: `+X +X` gives the field twice, and
      `+X -X` still gives it once. */
  lemma NoDeduplication(x: FieldReference)
    requires x.isIncluded
    ensures SelectFields([x, x]) == [ToLower(x.name), ToLower(x.name)]
    ensures SelectFields([x, x.(isIncluded := false)]) == [ToLower(x.name)]
  {
    assert [x, x][1..] == [x];
    assert [x, x.(isIncluded := false)][1..] == [x.(isIncluded := false)];
  }

  /** A primitive term generates exactly one field, its name lower-cased. */
  lemma PrimitiveTermField(name: string)
    ensures EmitItem(Term(name, [])) == Some(TypeDef(name, [ToLower(name)]))
  {
  }

  /** Generation respects item order: the types of a concatenation are the
      types of each part, one after the other. */
  lemma {:induction false} EmitFileAppend(a: seq<DataLangItem>, b: seq<DataLangItem>)
    ensures EmitFile(a + b) == EmitFile(a) + EmitFile(b)
    decreases |a|
  {
    if |a| > 0 {
      assert (a + b)[0] == a[0];
      assert (a + b)[1..] == a[1..] + b;
      EmitFileAppend(a[1..], b);
      match EmitItem(a[0]) {
        case None =>
          assert EmitFile(a + b) == EmitFile(a[1..] + b);
        case Some(t) =>
          assert EmitFile(a + b) == [t] + EmitFile(a[1..] + b);
          assert EmitFile(a) == [t] + EmitFile(a[1..]);
      }
    } else {
      assert a + b == b;
    }
  }

  /** In a constructed instance every field of the type reads as "", and
      nothing else is a field. */
  lemma {:induction false} NewFieldsAreEmpty(fields: seq<string>, field: string)
    ensures Lookup(New(fields), field) == if field in fields then Some("") else None
    decreases |fields|
  {
    if |fields| > 0 {
      NewFieldsAreEmpty(fields[1..], field);
      assert New(fields)[1..] == New(fields[1..]);
      assert field in fields <==> field == fields[0] || field in fields[1..];
    }
  }
}

=== FILE: field_refs.dfy ===
/** Parsing a single field directive (`FieldReference::parse_from_str`),
    its textual rendering, and the round trips between the two. */
module FieldRefs {

  import opened Wrappers
  import opened Text
  import opened Types

  const SignReason := "Field references must start with + (include) or - (exclude)"

  /** The directive text after its sign, trimmed. */
  function AfterSign(input: string): string
    requires |Trim(input)| > 0
  {
    Trim(Trim(input)[1..])
  }

  /** Splits the text after the sign at its first "::", if any: a namespace
      exactly when there is a separator, and then both parts trimmed;
      otherwise the whole text is the name. */
  function SplitReference(isIncluded: bool, rest: string): (r: FieldReference)
    ensures r.isIncluded == isIncluded
    ensures r.HasNamespace() <==> HasSep(rest)
    ensures !HasSep(rest) ==> r.name == rest
    ensures HasSep(rest) ==>
              r.namespace == Some(Trim(SplitOnce(rest).value.0)) && r.name == Trim(SplitOnce(rest).value.1)
    ensures HasSep(rest) ==> Trimmed(r.name) && Trimmed(r.namespace.value)
  {
    match SplitOnce(rest)
    case Some((ns, nm)) => FieldReference(isIncluded, Some(Trim(ns)), Trim(nm))
    case None => FieldReference(isIncluded, None, rest)
  }

  /** A string with no whitespace at either end. */
  predicate Trimmed(s: string) {
    |s| > 0 ==> !IsSpace(s[0]) && !IsSpace(s[|s| - 1])
  }

  /** `FieldReference::parse_from_str`. The trimmed input must start with `+`
      (included) or `-` (excluded); anything else is an
      `InvalidFieldReference` carrying the untrimmed input. The rest is split
      at its first "::" into a trimmed namespace and a trimmed name; without
      "::" there is no namespace and the whole rest is the name. */
  function ParseFieldReference(input: string): (r: Result<FieldReference, ParseError>)
    ensures r.Success? <==> StartsWithChar(Trim(input), '+') || StartsWithChar(Trim(input), '-')
    ensures r.Success? ==> (r.value.IsIncluded() <==> StartsWithChar(Trim(input), '+'))
    ensures r.Failure? ==> r.error == InvalidFieldReference(input, SignReason)
    ensures r.Success? ==> (r.value.HasNamespace() <==> HasSep(AfterSign(input)))
    ensures r.Success? && !r.value.HasNamespace() ==> r.value.name == AfterSign(input)
    ensures r.Success? && r.value.HasNamespace() ==>
              var parts := SplitOnce(AfterSign(input)).value;
              r.value.namespace == Some(Trim(parts.0)) && r.value.name == Trim(parts.1)
    ensures r.Success? ==> Trimmed(r.value.name)
    ensures r.Success? && r.value.HasNamespace() ==> Trimmed(r.value.namespace.value)
  {
    var trimmed := Trim(input);
    if StartsWithChar(trimmed, '+') then
      Success(SplitReference(true, Trim(trimmed[1..])))
    else if StartsWithChar(trimmed, '-') then
      Success(SplitReference(false, Trim(trimmed[1..])))
    else
      Failure(InvalidFieldReference(input, SignReason))
  }

  /** `is_excluded` of a parsed reference holds exactly when the directive's
      sign is `-`. */
  lemma ParsedExclusion(input: string)
    requires ParseFieldReference(input).Success?
    ensures ParseFieldReference(input).value.IsExcluded() <==> StartsWithChar(Trim(input), '-')
  {
  }

  /** `has_namespace` of a parsed reference holds exactly when the text after
      the sign contains "::"; the namespace is then the trimmed text before
      the first one. */
  lemma ParsedNamespace(input: string)
    requires ParseFieldReference(input).Success?
    ensures ParseFieldReference(input).value.HasNamespace() <==> HasSep(AfterSign(input))
    ensures ParseFieldReference(input).value.HasNamespace() ==>
              ParseFieldReference(input).value.namespace.value == Trim(SplitOnce(AfterSign(input)).value.0)
  {
  }

  /** After the sign, src/types.rs trims once more; since the trimmed input
      already ends in a non-whitespace character, that second trim only
      removes whitespace between the sign and the name. */
  lemma AfterSignTrimsStartOnly(input: string)
    requires |Trim(input)| > 0
    ensures AfterSign(input) == TrimStart(Trim(input)[1..])
  {
    TrimAfterFirst(Trim(input));
  }

  /** The directive text of a reference: its sign followed by its full name. */
  function Render(f: FieldReference): string {
    (if f.isIncluded then "+" else "-") + f.FullName()
  }

  /** References whose rendering parses back to themselves: no whitespace
      anywhere, and the separator written by `Render` is the first "::". */
  predicate Renderable(f: FieldReference) {
    && NoSpace(f.name)
    && match f.namespace
       case None => !HasSep(f.name)
       case Some(ns) => NoSpace(ns) && !HasSep(ns) && (|ns| > 0 ==> ns[|ns| - 1] != ':')
  }

  lemma NoSpaceAppend(a: string, b: string)
    requires NoSpace(a) && NoSpace(b)
    ensures NoSpace(a + b)
  {
    assert forall k :: |a| <= k < |a| + |b| ==> (a + b)[k] == b[k - |a|];
  }

  /** The full name of a renderable reference has no whitespace. */
  lemma RenderableHasNoSpace(f: FieldReference)
    requires Renderable(f)
    ensures NoSpace(f.FullName())
  {
    if f.namespace.Some? {
      NoSpaceAppend(f.namespace.value, "::");
      NoSpaceAppend(f.namespace.value + "::", f.name);
    }
  }

  /** Splitting the full name of a renderable reference recovers it. */
  lemma SplitRenderable(f: FieldReference)
    requires Renderable(f)
    ensures SplitReference(f.isIncluded, f.FullName()) == f
  {
    match f.namespace {
      case None =>
      case Some(ns) =>
        SplitOnceOfJoin(ns, f.name);
        TrimNoSpace(ns);
        TrimNoSpace(f.name);
    }
  }

  /** Parsing the rendering of a renderable reference gives it back. */
  lemma ParseRender(f: FieldReference)
    requires Renderable(f)
    ensures ParseFieldReference(Render(f)) == Success(f)
  {
    RenderableHasNoSpace(f);
    ParseSignedWord(f.isIncluded, f.FullName());
    SplitRenderable(f);
  }

  /** A sign followed by a whitespace-free word is already trimmed, and the
      word is what follows the sign. */
  lemma AfterSignOfWord(sign: char, s: string)
    requires !IsSpace(sign) && NoSpace(s)
    ensures Trim([sign] + s) == [sign] + s
    ensures AfterSign([sign] + s) == s
  {
    NoSpaceAppend([sign], s);
    TrimNoSpace([sign] + s);
    assert ([sign] + s)[1..] == s;
    TrimNoSpace(s);
  }

  /** Both sides of a whitespace-free "::" join are whitespace-free. */
  lemma NoSpaceParts(l: string, rest: string)
    requires NoSpace(l + "::" + rest)
    ensures NoSpace(l) && NoSpace(rest)
  {
    var s := l + "::" + rest;
    assert forall k :: 0 <= k < |l| ==> s[k] == l[k];
    assert forall k :: 0 <= k < |rest| ==> s[|l| + 2 + k] == rest[k];
  }

  /** Splitting a whitespace-free word loses nothing of it. */
  lemma SplitReferenceKeepsText(included: bool, s: string)
    requires NoSpace(s)
    ensures SplitReference(included, s).FullName() == s
  {
    match SplitOnce(s) {
      case None =>
      case Some((l, rest)) =>
        NoSpaceParts(l, rest);
        TrimNoSpace(l);
        TrimNoSpace(rest);
    }
  }

  /** A sign followed by a whitespace-free word parses with that sign, the
      word being split at its first "::". */
  lemma ParseSignedWord(included: bool, s: string)
    requires NoSpace(s)
    ensures ParseFieldReference((if included then "+" else "-") + s) == Success(SplitReference(included, s))
  {
    var sign := if included then '+' else '-';
    var input := [sign] + s;
    assert (if included then "+" else "-") == [sign];
    AfterSignOfWord(sign, s);
    assert StartsWithChar(Trim(input), sign);
  }

  /** Parsing a signed whitespace-free word and printing its full name gives
      the word back, for both signs. */
  lemma FullNameRoundTrip(s: string, included: bool)
    requires NoSpace(s)
    ensures var input := (if included then "+" else "-") + s;
            && ParseFieldReference(input).Success?
            && ParseFieldReference(input).value.IsIncluded() == included
            && ParseFieldReference(input).value.FullName() == s
  {
    ParseSignedWord(included, s);
    SplitReferenceKeepsText(included, s);
  }
}

=== FILE: parser.dfy ===
/** The line-oriented parser `DataLangFile::parse_from_str` (src/types.rs).
    The input is the file already split into lines. The parser only ever
    looks at a line after trimming it, so the steps below read `ts`, the
    trimmed lines. Each step reads one top-level construct starting at line
    `i` and says where the next one starts; the whole parse strings the steps
    together, failing at the first error. */
module Parser {

  import opened Wrappers
  import opened Text
  import opened Types
  import opened FieldRefs
  import opened Queries

  const BodyReason := "Fields must start with + (include) or - (exclude)"

  /** First words that are refused as entity names, so that habits from
      general-purpose languages fail loudly instead of declaring a struct. */
  const ReservedWords: seq<string> := [
    "function", "fn", "struct", "impl", "let", "const", "static", "use", "mod",
    "var", "class", "interface", "enum", "type", "pub", "priv", "private",
    "public", "return", "if", "else", "while", "for", "match", "loop",
    "test", "describe", "it", "expect", "assert", "should", "spec"
  ]

  /** The replacement offered for a refused first word, when there is one. */
  function Suggestion(keyword: string): Option<string> {
    if keyword == "function" || keyword == "fn" then Some("term")
    else if keyword == "struct" || keyword == "class" || keyword == "interface" then Some("term with struct-like syntax")
    else if keyword == "enum" then Some("term with variants")
    else if keyword == "use" then Some("import")
    else if keyword == "type" then Some("term")
    else if keyword == "test" || keyword == "describe" || keyword == "it" then Some("term")
    else None
  }

  /** A suggestion is only ever offered for a refused word, and it always
      points at a DataLang construct: a form of `term`, or `import`. */
  lemma SuggestionsAreRefused(keyword: string)
    requires Suggestion(keyword).Some?
    ensures keyword in ReservedWords
    ensures StartsWith(Suggestion(keyword).value, "term") || Suggestion(keyword).value == "import"
  {
  }

  /** A trimmed line that is blank or a `//` comment. */
  predicate IsSkippable(t: string) {
    |t| == 0 || StartsWith(t, "//")
  }

  /** A trimmed line that opens with a `+` or `-` directive sign. */
  predicate IsSigned(t: string) {
    StartsWithChar(t, '+') || StartsWithChar(t, '-')
  }

  /** The words of line `i`, after trimming. */
  function Tokens(ts: seq<string>, i: nat): seq<string>
    requires i < |ts|
  {
    SplitWhitespace(ts[i])
  }

  // ---------------------------------------------------------------------------
  // Scanning helpers

  /** Where a term's `{` is, when it is not on the header line: the first
      line from `j` on holding a `{`, provided only blank lines and lines
      that are exactly `has` come before it. */
  function FindTermBrace(ts: seq<string>, j: nat): (r: Option<nat>)
    ensures r.Some? ==> j <= r.value < |ts| && '{' in ts[r.value]
    ensures r.Some? ==> forall m :: j <= m < r.value ==> ts[m] == "" || ts[m] == "has"
    decreases |ts| - j
  {
    if j >= |ts| then None
    else
      var t := ts[j];
      if '{' in t then Some(j)
      else if |t| != 0 && t != "has" then None
      else FindTermBrace(ts, j + 1)
  }

  /** Where a struct's `{` is, when it is not on the header line: the first
      line from `j` on holding a `{`, whatever comes before it. */
  function FindStructBrace(ts: seq<string>, j: nat): (r: Option<nat>)
    ensures r.Some? ==> j <= r.value < |ts| && '{' in ts[r.value]
    ensures r.Some? ==> forall m :: j <= m < r.value ==> '{' !in ts[m]
    ensures r.None? ==> forall m :: j <= m < |ts| ==> '{' !in ts[m]
    decreases |ts| - j
  {
    if j >= |ts| then None
    else if '{' in ts[j] then Some(j)
    else FindStructBrace(ts, j + 1)
  }

  /** The first line from `j` on that is exactly `}` once trimmed, or
      `|ts|` when there is none. */
  function FindClose(ts: seq<string>, j: nat): (r: nat)
    requires j <= |ts|
    ensures j <= r <= |ts|
    ensures r < |ts| ==> ts[r] == "}"
    ensures forall m :: j <= m < r ==> ts[m] != "}"
    decreases |ts| - j
  {
    if j == |ts| then j
    else if ts[j] == "}" then j
    else FindClose(ts, j + 1)
  }

  /** The directive lines of a body and the line where the body ended. */
  datatype Body = Body(directives: seq<string>, close: nat)

  /** The directive lines of a body starting at line `j`, up to the first
      line that is exactly `}` (or the end of the input). Blank and `//`
      lines are skipped; any other line must open with `+` or `-`. The body
      ends where `FindClose` says it does. */
  function ParseBody(ts: seq<string>, j: nat): (r: Result<Body, ParseError>)
    requires j <= |ts|
    ensures r.Success? ==> r.value.close == FindClose(ts, j)
    ensures r.Success? ==> forall k :: 0 <= k < |r.value.directives| ==> IsSigned(r.value.directives[k])
    ensures r.Failure? ==> r.error.InvalidFieldReference?
    decreases |ts| - j
  {
    if j == |ts| then Success(Body([], j))
    else
      var t := ts[j];
      if t == "}" then Success(Body([], j))
      else if IsSkippable(t) then ParseBody(ts, j + 1)
      else if IsSigned(t) then
        var rest :- ParseBody(ts, j + 1);
        var ds := [t] + rest.directives;
        assert forall k :: 1 <= k < |ds| ==> ds[k] == rest.directives[k - 1];
        Success(Body(ds, rest.close))
      else
        Failure(InvalidFieldReference(t, BodyReason))
  }

  /** The references of a body's directive lines, in order. Each line opens
      with a sign and so parses: the `?` src/types.rs applies to each never
      fires. */
  function ParseDirectives(directives: seq<string>): (r: seq<FieldReference>)
    requires forall k :: 0 <= k < |directives| ==> IsSigned(directives[k])
    ensures |r| == |directives|
    ensures forall k :: 0 <= k < |r| ==> ParseFieldReference(directives[k]) == Success(r[k])
  {
    SignedLinesParse(directives);
    seq(|directives|, k requires 0 <= k < |directives| => ParseFieldReference(directives[k]).value)
  }

  /** Each reference is what its own line parses to, and its sign is the
      line's first character. */
  lemma ParseDirectivesEach(directives: seq<string>, k: nat)
    requires forall n :: 0 <= n < |directives| ==> IsSigned(directives[n])
    requires k < |directives|
    ensures ParseFieldReference(directives[k]) == Success(ParseDirectives(directives)[k])
    ensures ParseDirectives(directives)[k].isIncluded <==> directives[k][0] == '+'
  {
    SignedLineParses(directives[k]);
  }

  /** A line opening with a sign parses, and its sign decides inclusion. */
  lemma SignedLineParses(t: string)
    requires IsSigned(t)
    ensures ParseFieldReference(t).Success?
    ensures ParseFieldReference(t).value.IsIncluded() <==> t[0] == '+'
  {
    TrimKeepsFirst(t);
  }

  lemma SignedLinesParse(ds: seq<string>)
    requires forall k :: 0 <= k < |ds| ==> IsSigned(ds[k])
    ensures forall k :: 0 <= k < |ds| ==> ParseFieldReference(ds[k]).Success?
  {
    forall k | 0 <= k < |ds|
      ensures ParseFieldReference(ds[k]).Success?
    {
      SignedLineParses(ds[k]);
    }
  }

  // ---------------------------------------------------------------------------
  // Reading the file
  //
  // `ParseFrom`, `ParseLine`, `ParseTerm` and `ParseStruct` form one
  // recursive group: each construct, once read, goes on to read the rest of
  // the file from the line after it. This is the single loop of src/types.rs over
  // the lines, with the line index as the argument.

  /** The well-formedness every parsed item has: its identifier is a single
      whitespace-free word, and a struct is never named by a refused word. */
  predicate WellFormedItem(item: DataLangItem) {
    IsToken(item.Ident()) && (item.Struct? ==> item.name !in ReservedWords)
  }

  predicate AllWellFormed(items: seq<DataLangItem>) {
    forall k :: 0 <= k < |items| ==> WellFormedItem(items[k])
  }

  /** `item` in front of the items read after it, or the error met there. */
  function Prepend(item: DataLangItem, rest: Result<seq<DataLangItem>, ParseError>): (r: Result<seq<DataLangItem>, ParseError>)
    ensures r.Success? <==> rest.Success?
    ensures WellFormedItem(item) && rest.Success? && AllWellFormed(rest.value) ==> AllWellFormed(r.value)
  {
    match rest
    case Success(items) =>
      var r := [item] + items;
      assert forall k :: 1 <= k < |r| ==> r[k] == items[k - 1];
      Success(r)
    case Failure(e) => Failure(e)
  }

  /** The items of the constructs from line `i` on, in source order, or the
      first error met. */
  function ParseFrom(ts: seq<string>, i: nat): (r: Result<seq<DataLangItem>, ParseError>)
    ensures r.Success? ==> AllWellFormed(r.value)
    decreases |ts| - i, 2
  {
    if i >= |ts| then Success([]) else ParseLine(ts, i)
  }

  /** Line `i` and everything after it. A blank or comment line is skipped;
      otherwise the first word decides: `dictionary` and `import` take the
      second word as their identifier, `term` starts a term, and any other
      word starts a struct. */
  function ParseLine(ts: seq<string>, i: nat): (r: Result<seq<DataLangItem>, ParseError>)
    requires i < |ts|
    ensures r.Success? ==> AllWellFormed(r.value)
    decreases |ts| - i, 1
  {
    var line := ts[i];
    var tokens := SplitWhitespace(line);
    if IsSkippable(line) || |tokens| == 0 then
      ParseFrom(ts, i + 1)
    else if tokens[0] == "dictionary" then
      if |tokens| < 2 then Failure(MissingIdentifier("Expected dictionary name"))
      else Prepend(Dictionary(tokens[1]), ParseFrom(ts, i + 1))
    else if tokens[0] == "import" then
      if |tokens| < 2 then Failure(MissingIdentifier("Expected module name after import"))
      else Prepend(Import(tokens[1]), ParseFrom(ts, i + 1))
    else if tokens[0] == "term" then
      ParseTerm(ts, i)
    else
      ParseStruct(ts, i)
  }

  /** Line `i` starts with `term`. Its second word is the name; the term is
      composite when its third word is `has`. The `{` must be on the header
      line or follow it after blank or `has` lines only. A composite term
      reads its directives up to the first `}` line; a primitive term skips
      everything up to the first `}` line. Parsing resumes after that line. */
  function ParseTerm(ts: seq<string>, i: nat): (r: Result<seq<DataLangItem>, ParseError>)
    requires i < |ts|
    ensures r.Success? ==> AllWellFormed(r.value)
    decreases |ts| - i, 0
  {
    var line := ts[i];
    var tokens := SplitWhitespace(line);
    if |tokens| < 2 then
      Failure(MissingIdentifier("Expected term name"))
    else
      var name := tokens[1];
      var hasFields := |tokens| > 2 && tokens[2] == "has";
      var brace := if '{' in line then Some(i) else FindTermBrace(ts, i + 1);
      match brace
      case None =>
        Failure(InvalidSyntax("Expected opening brace after term " + name))
      case Some(b) =>
        if hasFields then
          var body :- ParseBody(ts, b + 1);
          Prepend(Term(name, ParseDirectives(body.directives)), ParseFrom(ts, body.close + 1))
        else
          Prepend(Term(name, []), ParseFrom(ts, FindClose(ts, b + 1) + 1))
  }

  /** Line `i` starts with a word that is not a keyword: a struct named by
      that word, unless the word is refused. The `{` may be on any later
      line; the directives run up to the first `}` line, and parsing resumes
      after it. */
  function ParseStruct(ts: seq<string>, i: nat): (r: Result<seq<DataLangItem>, ParseError>)
    requires i < |ts| && |Tokens(ts, i)| > 0
    ensures r.Success? ==> AllWellFormed(r.value)
    decreases |ts| - i, 0
  {
    var line := ts[i];
    var keyword := SplitWhitespace(line)[0];
    if keyword in ReservedWords then
      Failure(InvalidKeyword(keyword, Suggestion(keyword)))
    else
      var brace := if '{' in line then Some(i) else FindStructBrace(ts, i + 1);
      match brace
      case None =>
        Failure(InvalidSyntax("Expected opening brace after struct " + keyword))
      case Some(b) =>
        var body :- ParseBody(ts, b + 1);
        Prepend(Struct(keyword, ParseDirectives(body.directives)), ParseFrom(ts, body.close + 1))
  }

  /** Every line of a file, trimmed. Each result line neither starts nor ends
      with whitespace. */
  function TrimLines(lines: seq<string>): (ts: seq<string>)
    ensures |ts| == |lines|
    ensures forall i :: 0 <= i < |ts| ==> ts[i] == Trim(lines[i])
    ensures forall i :: 0 <= i < |ts| ==> Trimmed(ts[i])
  {
    seq(|lines|, i requires 0 <= i < |lines| => Trim(lines[i]))
  }

  /** Trimming every line once, up front, is what src/types.rs gets by
      trimming a line each time it looks at it: a second trim of a trimmed
      line changes nothing. */
  lemma TrimLinesIdempotent(lines: seq<string>)
    ensures TrimLines(TrimLines(lines)) == TrimLines(lines)
  {
    var ts := TrimLines(lines);
    forall i | 0 <= i < |ts|
      ensures TrimLines(ts)[i] == ts[i]
    {
      TrimIdempotent(lines[i]);
    }
  }

  /** `DataLangFile::parse_from_str` over the lines of a file. Whatever it
      accepts also passes `validate`, since every identifier it records is a
      whole word of some line. */
  function Parse(lines: seq<string>): (r: Result<DataLangFile, ParseError>)
    ensures r.Success? ==> AllWellFormed(r.value.items)
    ensures r.Success? ==> Validate(r.value).Success?
  {
    var items :- ParseFrom(TrimLines(lines), 0);
    Success(DataLangFile(items))
  }
}

=== FILE: parser_facts.dfy ===
/** What the line parser does with each kind of line, stated against
    independent descriptions of the input rather than its own code. As in
    the parser, `ts` are the lines of the file after trimming. */
module ParserFacts {

  import opened Wrappers
  import opened Text
  import opened Types
  import opened Parser

  // ---------------------------------------------------------------------------
  // The first word of a line

  /** A trimmed non-empty line starts with its first word, and it is a `//`
      comment exactly when that word starts with `//`. */
  lemma FirstWord(t: string)
    requires |t| > 0 && !IsSpace(t[0])
    ensures |SplitWhitespace(t)| > 0
    ensures StartsWith(t, SplitWhitespace(t)[0])
    ensures StartsWith(t, "//") <==> StartsWith(SplitWhitespace(t)[0], "//")
  {
    var w := TakeWord(t);
    assert SplitWhitespace(t)[0] == w;
    if StartsWith(t, "//") {
      assert !IsSpace(t[1]);
      assert |w| >= 2;
      assert w[..2] == t[..2];
    }
    if StartsWith(w, "//") {
      assert t[..2] == w[..2];
    }
  }

  /** A line whose first word does not start with `//` is neither blank nor
      a comment. */
  lemma NotSkippable(ts: seq<string>, i: nat)
    requires i < |ts| && |Tokens(ts, i)| > 0
    requires !StartsWith(Tokens(ts, i)[0], "//")
    ensures !IsSkippable(ts[i])
  {
    var t := ts[i];
    SplitWhitespaceEmpty(t);
    if |t| > 0 && !IsSpace(t[0]) {
      FirstWord(t);
    }
  }

  /** In particular a line whose first word does not start with `/`. */
  lemma KeywordLine(ts: seq<string>, i: nat)
    requires i < |ts| && |Tokens(ts, i)| > 0
    requires Tokens(ts, i)[0][0] != '/'
    ensures !IsSkippable(ts[i])
  {
    var w := Tokens(ts, i)[0];
    if |w| >= 2 {
      assert w[..2][0] == w[0];
    }
    NotSkippable(ts, i);
  }

  // ---------------------------------------------------------------------------
  // Blank lines and comments

  /** A blank or comment line declares nothing: parsing goes on from the
      next line. */
  lemma SkippedLine(ts: seq<string>, i: nat)
    requires i < |ts| && IsSkippable(ts[i])
    ensures ParseFrom(ts, i) == ParseFrom(ts, i + 1)
  {
    assert ParseFrom(ts, i) == ParseLine(ts, i);
  }

  /** A run of blank and `//` lines contributes nothing: parsing resumes
      after it as if it were not there. */
  lemma {:induction false} SkippedLinesContributeNothing(ts: seq<string>, i: nat, j: nat)
    requires i <= j <= |ts|
    requires forall m :: i <= m < j ==> IsSkippable(ts[m])
    ensures ParseFrom(ts, i) == ParseFrom(ts, j)
    decreases j - i
  {
    if i < j {
      SkippedLine(ts, i);
      SkippedLinesContributeNothing(ts, i + 1, j);
    }
  }

  // ---------------------------------------------------------------------------
  // `dictionary` and `import` lines

  predicate IsDeclKeyword(w: string) {
    w == "dictionary" || w == "import"
  }

  /** The item a `dictionary` or `import` line declares. */
  function Declared(keyword: string, name: string): DataLangItem
    requires IsDeclKeyword(keyword)
  {
    if keyword == "dictionary" then Dictionary(name) else Import(name)
  }

  function MissingNameMessage(keyword: string): string {
    if keyword == "dictionary" then "Expected dictionary name"
    else if keyword == "import" then "Expected module name after import"
    else "Expected term name"
  }

  /** A `dictionary X` or `import X` line adds exactly one item carrying its
      second word, in front of whatever the following lines give; without a
      second word it is a `MissingIdentifier` error. Any further words on
      the line are ignored. */
  lemma DeclarationLine(ts: seq<string>, i: nat)
    requires i < |ts| && |Tokens(ts, i)| > 0 && IsDeclKeyword(Tokens(ts, i)[0])
    ensures var t := Tokens(ts, i);
            ParseFrom(ts, i) ==
              if |t| < 2 then Failure(MissingIdentifier(MissingNameMessage(t[0])))
              else Prepend(Declared(t[0], t[1]), ParseFrom(ts, i + 1))
  {
    KeywordLine(ts, i);
    assert ParseFrom(ts, i) == ParseLine(ts, i);
  }

  /** A line that is blank, a comment, or a complete declaration. */
  predicate IsDeclLine(t: string) {
    IsSkippable(t) ||
    (var w := SplitWhitespace(t); |w| >= 2 && IsDeclKeyword(w[0]))
  }

  /** The items a run of declaration lines declares, in order. */
  function DeclaredItems(ts: seq<string>): seq<DataLangItem>
    requires forall m :: 0 <= m < |ts| ==> IsDeclLine(ts[m])
  {
    if |ts| == 0 then []
    else
      var t := ts[0];
      var w := SplitWhitespace(t);
      assert IsDeclLine(t);
      (if IsSkippable(t) then [] else [Declared(w[0], w[1])]) + DeclaredItems(ts[1..])
  }

  /** The declarations from line `i` on: those of line `i`, then the rest. */
  lemma DeclaredItemsFrom(ts: seq<string>, i: nat)
    requires i < |ts|
    requires forall m :: 0 <= m < |ts| ==> IsDeclLine(ts[m])
    ensures IsSkippable(ts[i]) ==> DeclaredItems(ts[i..]) == DeclaredItems(ts[i + 1..])
    ensures !IsSkippable(ts[i]) ==>
              DeclaredItems(ts[i..]) == [Declared(Tokens(ts, i)[0], Tokens(ts, i)[1])] + DeclaredItems(ts[i + 1..])
  {
    assert ts[i..][1..] == ts[i + 1..];
    assert ts[i..][0] == ts[i];
    assert IsDeclLine(ts[i]);
  }

  /** A file made only of declarations, blank lines and comments parses to
      one item per declaration, in source order. */
  lemma {:induction false} DeclarationsInOrder(ts: seq<string>, i: nat)
    requires i <= |ts|
    requires forall m :: 0 <= m < |ts| ==> IsDeclLine(ts[m])
    ensures ParseFrom(ts, i) == Success(DeclaredItems(ts[i..]))
    decreases |ts| - i
  {
    if i < |ts| {
      DeclarationsInOrder(ts, i + 1);
      DeclaredItemsFrom(ts, i);
      if IsSkippable(ts[i]) {
        SkippedLine(ts, i);
      } else {
        assert IsDeclLine(ts[i]);
        DeclarationLine(ts, i);
      }
    }
  }

  // ---------------------------------------------------------------------------
  // Refused first words

  /** A line whose first word is refused fails with `InvalidKeyword`,
      carrying the word and its suggestion, and stops the parse there. */
  lemma ReservedWordRejected(ts: seq<string>, i: nat)
    requires i < |ts| && |Tokens(ts, i)| > 0 && Tokens(ts, i)[0] in ReservedWords
    ensures var w := Tokens(ts, i)[0];
            ParseFrom(ts, i) == Failure(InvalidKeyword(w, Suggestion(w)))
  {
    var w := Tokens(ts, i)[0];
    RefusedWordIsPlain(w);
    KeywordLine(ts, i);
    assert ParseFrom(ts, i) == ParseLine(ts, i);
    assert ParseLine(ts, i) == ParseStruct(ts, i);
  }

  /** A lower-case word of two letters or more that is not a keyword. */
  predicate PlainWord(w: string) {
    |w| >= 2 && 'a' <= w[0] <= 'z' && w != "dictionary" && w != "import" && w != "term"
  }

  lemma PlainFirstHalf(k: nat)
    requires k < 16
    ensures PlainWord(ReservedWords[k])
  {
  }

  lemma PlainSecondHalf(k: nat)
    requires 16 <= k < |ReservedWords|
    ensures PlainWord(ReservedWords[k])
  {
  }

  /** Refused words are plain lower-case words, none of them a keyword. */
  lemma RefusedWordIsPlain(w: string)
    requires w in ReservedWords
    ensures PlainWord(w)
  {
    var k :| 0 <= k < |ReservedWords| && ReservedWords[k] == w;
    if k < 16 {
      PlainFirstHalf(k);
    } else {
      PlainSecondHalf(k);
    }
  }

  // ---------------------------------------------------------------------------
  // Locating braces

  /** Line `b` holds the `{` of the term whose header is line `i`: either the
      header itself has one, or `b` is the first line after it with a `{`
      and only blank and `has` lines come between. */
  predicate TermBraceAt(ts: seq<string>, i: nat, b: nat) {
    && i <= b < |ts|
    && '{' in ts[b]
    && (b == i || ('{' !in ts[i] && forall m :: i < m < b ==> ts[m] == "" || ts[m] == "has"))
  }

  lemma {:induction false} FindTermBraceAt(ts: seq<string>, j: nat, b: nat)
    requires j <= b < |ts| && '{' in ts[b]
    requires forall m :: j <= m < b ==> ts[m] == "" || ts[m] == "has"
    ensures FindTermBrace(ts, j) == Some(b)
    decreases b - j
  {
    if j < b {
      var t := ts[j];
      assert t == "" || t == "has";
      assert '{' !in t;
      FindTermBraceAt(ts, j + 1, b);
      assert FindTermBrace(ts, j) == FindTermBrace(ts, j + 1);
    }
  }

  /** The term's brace search ends on the line `TermBraceAt` describes. */
  lemma TermBraceFound(ts: seq<string>, i: nat, b: nat)
    requires TermBraceAt(ts, i, b)
    ensures (if '{' in ts[i] then Some(i) else FindTermBrace(ts, i + 1)) == Some(b)
  {
    if b == i {
      assert '{' in ts[i];
    } else {
      assert '{' !in ts[i];
      FindTermBraceAt(ts, i + 1, b);
    }
  }

  /** The term's brace search gives up at the first line after the header
      that is neither blank, nor `has`, nor holds a `{`, or at the end. */
  lemma {:induction false} FindTermBraceFails(ts: seq<string>, j: nat, stop: nat)
    requires j <= stop <= |ts|
    requires forall m :: j <= m < stop ==> ts[m] == "" || ts[m] == "has"
    requires stop < |ts| ==> var t := ts[stop]; t != "" && t != "has" && '{' !in t
    ensures FindTermBrace(ts, j) == None
    decreases stop - j
  {
    if j < stop {
      var t := ts[j];
      assert t == "" || t == "has";
      assert '{' !in t;
      FindTermBraceFails(ts, j + 1, stop);
      assert FindTermBrace(ts, j) == FindTermBrace(ts, j + 1);
    }
  }

  /** Line `b` holds the `{` of the struct whose header is line `i`: the
      first line from the header on with a `{`. */
  predicate StructBraceAt(ts: seq<string>, i: nat, b: nat) {
    && i <= b < |ts|
    && '{' in ts[b]
    && forall m :: i <= m < b ==> '{' !in ts[m]
  }

  lemma StructBraceFound(ts: seq<string>, i: nat, b: nat)
    requires StructBraceAt(ts, i, b)
    ensures (if '{' in ts[i] then Some(i) else FindStructBrace(ts, i + 1)) == Some(b)
  {
    if b != i {
      var r := FindStructBrace(ts, i + 1);
      if r != Some(b) {
        assert false;
      }
    }
  }

  // ---------------------------------------------------------------------------
  // Bodies

  /** The first line from `j` on that is exactly `}` is line `k` (`|ts|`
      when there is none). */
  predicate CloseAt(ts: seq<string>, j: nat, k: nat) {
    && j <= k <= |ts|
    && (k < |ts| ==> ts[k] == "}")
    && forall m :: j <= m < k ==> ts[m] != "}"
  }

  lemma FindCloseAt(ts: seq<string>, j: nat, k: nat)
    requires CloseAt(ts, j, k)
    ensures FindClose(ts, j) == k
  {
  }

  /** Every line of `ts[lo..hi]` is blank, a comment, or a directive. */
  predicate DirectiveLines(ts: seq<string>, lo: nat, hi: nat) {
    && lo <= hi <= |ts|
    && forall m :: lo <= m < hi ==> IsSkippable(ts[m]) || IsSigned(ts[m])
  }

  /** What a blank, comment or directive line contributes to a body. */
  function LineDirective(t: string): seq<string> {
    if IsSkippable(t) then [] else [t]
  }

  /** The directive lines of `ts[lo..hi]`, in order, collected from the
      last line backwards. */
  function Directives(ts: seq<string>, lo: nat, hi: nat): (r: seq<string>)
    requires DirectiveLines(ts, lo, hi)
    ensures forall n :: 0 <= n < |r| ==> IsSigned(r[n])
    decreases hi
  {
    if hi == lo then []
    else
      var init := Directives(ts, lo, hi - 1);
      var r := init + LineDirective(ts[hi - 1]);
      assert forall n :: 0 <= n < |init| ==> r[n] == init[n];
      r
  }

  lemma AppendAssoc<T>(a: seq<T>, b: seq<T>, c: seq<T>)
    ensures a + b + c == a + (b + c)
  {
  }

  /** Collected from the first line forwards, the directives are the same. */
  lemma {:induction false} DirectivesFront(ts: seq<string>, lo: nat, hi: nat)
    requires DirectiveLines(ts, lo, hi) && lo < hi
    ensures Directives(ts, lo, hi) == LineDirective(ts[lo]) + Directives(ts, lo + 1, hi)
    decreases hi - lo
  {
    if lo + 1 < hi {
      DirectivesFront(ts, lo, hi - 1);
      AppendAssoc(LineDirective(ts[lo]), Directives(ts, lo + 1, hi - 1), LineDirective(ts[hi - 1]));
    } else {
      assert Directives(ts, lo + 1, hi) == [];
    }
  }

  /** A blank, comment or directive line before the `}` adds itself, if a
      directive, in front of those read further down. */
  lemma BodyStep(ts: seq<string>, j: nat)
    requires j < |ts| && ts[j] != "}" && (IsSkippable(ts[j]) || IsSigned(ts[j]))
    requires ParseBody(ts, j + 1).Success?
    ensures ParseBody(ts, j) ==
              Success(Body(LineDirective(ts[j]) + ParseBody(ts, j + 1).value.directives, ParseBody(ts, j + 1).value.close))
  {
    if IsSkippable(ts[j]) {
      assert LineDirective(ts[j]) + ParseBody(ts, j + 1).value.directives == ParseBody(ts, j + 1).value.directives;
    }
  }

  /** A body whose lines up to the closing `}` are all directives, blanks or
      comments yields the references written there, in order, and ends on
      the closing line. */
  lemma {:induction false} BodyParsesDirectives(ts: seq<string>, j: nat, k: nat)
    requires CloseAt(ts, j, k) && DirectiveLines(ts, j, k)
    ensures ParseBody(ts, j) == Success(Body(Directives(ts, j, k), k))
    decreases k - j
  {
    if j < k {
      BodyParsesDirectives(ts, j + 1, k);
      BodyStep(ts, j);
      DirectivesFront(ts, j, k);
    }
  }

  /** In a body, the first line before the closing `}` that is neither
      blank, a comment nor a directive fails the parse with
      `InvalidFieldReference`, carrying that line. */
  lemma {:induction false} BodyRejectsLine(ts: seq<string>, j: nat, bad: nat)
    requires j <= bad < |ts|
    requires forall m :: j <= m < bad ==> ts[m] != "}"
    requires DirectiveLines(ts, j, bad)
    requires ts[bad] != "}" && !IsSkippable(ts[bad]) && !IsSigned(ts[bad])
    ensures ParseBody(ts, j) == Failure(InvalidFieldReference(ts[bad], BodyReason))
    decreases bad - j
  {
    if j < bad {
      BodyRejectsLine(ts, j + 1, bad);
      BodyPassesFailure(ts, j);
    }
  }

  /** A blank, comment or directive line before the `}` passes on an error
      met further down. */
  lemma BodyPassesFailure(ts: seq<string>, j: nat)
    requires j < |ts| && ts[j] != "}" && (IsSkippable(ts[j]) || IsSigned(ts[j]))
    requires ParseBody(ts, j + 1).Failure?
    ensures ParseBody(ts, j) == ParseBody(ts, j + 1)
  {
  }

  // ---------------------------------------------------------------------------
  // `term` lines

  predicate IsTermHeader(ts: seq<string>, i: nat) {
    i < |ts| && |Tokens(ts, i)| >= 2 && Tokens(ts, i)[0] == "term"
  }

  predicate HasKeyword(ts: seq<string>, i: nat)
    requires i < |ts|
  {
    |Tokens(ts, i)| > 2 && Tokens(ts, i)[2] == "has"
  }

  /** A line whose first word is `term` is read as a term. */
  lemma TermDispatch(ts: seq<string>, i: nat)
    requires i < |ts| && |Tokens(ts, i)| > 0 && Tokens(ts, i)[0] == "term"
    ensures ParseFrom(ts, i) == ParseTerm(ts, i)
  {
    KeywordLine(ts, i);
    assert ParseFrom(ts, i) == ParseLine(ts, i);
  }

  /** `term` with no name is a `MissingIdentifier` error. */
  lemma TermWithoutName(ts: seq<string>, i: nat)
    requires i < |ts| && Tokens(ts, i) == ["term"]
    ensures ParseFrom(ts, i) == Failure(MissingIdentifier("Expected term name"))
  {
    TermDispatch(ts, i);
  }

  /** The entity a term or struct called `name` gets from the body that
      starts at line `j`, in front of what the lines after the body give. */
  function EntityFromBody(ts: seq<string>, j: nat, isTerm: bool, name: string): Result<seq<DataLangItem>, ParseError>
    requires j <= |ts|
  {
    match ParseBody(ts, j)
    case Success(body) =>
      var refs := ParseDirectives(body.directives);
      Prepend(if isTerm then Term(name, refs) else Struct(name, refs), ParseFrom(ts, body.close + 1))
    case Failure(e) => Failure(e)
  }

  /** A body of directive lines closed on line `k` gives the entity the
      references written there, and parsing resumes after line `k`. */
  lemma BodyEntity(ts: seq<string>, j: nat, k: nat, isTerm: bool, name: string)
    requires CloseAt(ts, j, k) && DirectiveLines(ts, j, k)
    ensures EntityFromBody(ts, j, isTerm, name) ==
              Prepend(if isTerm then Term(name, ParseDirectives(Directives(ts, j, k)))
                      else Struct(name, ParseDirectives(Directives(ts, j, k))), ParseFrom(ts, k + 1))
  {
    BodyParsesDirectives(ts, j, k);
  }

  /** A body with a line that is not a directive makes the entity fail. */
  lemma BodyEntityFails(ts: seq<string>, j: nat, bad: nat, isTerm: bool, name: string)
    requires j <= bad < |ts|
    requires forall m :: j <= m < bad ==> ts[m] != "}"
    requires DirectiveLines(ts, j, bad)
    requires ts[bad] != "}" && !IsSkippable(ts[bad]) && !IsSigned(ts[bad])
    ensures EntityFromBody(ts, j, isTerm, name) == Failure(InvalidFieldReference(ts[bad], BodyReason))
  {
    BodyRejectsLine(ts, j, bad);
  }

  /** Once its `{` is found, a composite term reads its body, and a
      primitive term skips to the line after the first `}`. */
  lemma TermBody(ts: seq<string>, i: nat, b: nat)
    requires IsTermHeader(ts, i) && TermBraceAt(ts, i, b)
    ensures ParseTerm(ts, i) ==
              if HasKeyword(ts, i) then EntityFromBody(ts, b + 1, true, Tokens(ts, i)[1])
              else Prepend(Term(Tokens(ts, i)[1], []), ParseFrom(ts, FindClose(ts, b + 1) + 1))
  {
    TermBraceFound(ts, i, b);
  }

  lemma TermStep(ts: seq<string>, i: nat, b: nat)
    requires IsTermHeader(ts, i) && TermBraceAt(ts, i, b)
    ensures ParseFrom(ts, i) ==
              if HasKeyword(ts, i) then EntityFromBody(ts, b + 1, true, Tokens(ts, i)[1])
              else Prepend(Term(Tokens(ts, i)[1], []), ParseFrom(ts, FindClose(ts, b + 1) + 1))
  {
    TermDispatch(ts, i);
    TermBody(ts, i, b);
  }

  /** A term without `has` as its third word is primitive: it records no
      references, everything up to its first `}` line is skipped unread,
      whatever it contains, and parsing resumes after that line. */
  lemma PrimitiveTermSkipsBody(ts: seq<string>, i: nat, b: nat, k: nat)
    requires IsTermHeader(ts, i) && !HasKeyword(ts, i)
    requires TermBraceAt(ts, i, b) && CloseAt(ts, b + 1, k)
    ensures ParseFrom(ts, i) == Prepend(Term(Tokens(ts, i)[1], []), ParseFrom(ts, k + 1))
  {
    TermStep(ts, i, b);
    FindCloseAt(ts, b + 1, k);
  }

  /** A term with `has` as its third word records the references of its
      directive lines, in order, and parsing resumes after its `}` line. */
  lemma CompositeTermFields(ts: seq<string>, i: nat, b: nat, k: nat)
    requires IsTermHeader(ts, i) && HasKeyword(ts, i)
    requires TermBraceAt(ts, i, b) && CloseAt(ts, b + 1, k) && DirectiveLines(ts, b + 1, k)
    ensures ParseFrom(ts, i) ==
              Prepend(Term(Tokens(ts, i)[1], ParseDirectives(Directives(ts, b + 1, k))), ParseFrom(ts, k + 1))
  {
    TermStep(ts, i, b);
    BodyEntity(ts, b + 1, k, true, Tokens(ts, i)[1]);
  }

  /** A composite term whose body has a line that is not a directive fails
      with `InvalidFieldReference`. */
  lemma CompositeTermRejectsLine(ts: seq<string>, i: nat, b: nat, bad: nat)
    requires IsTermHeader(ts, i) && HasKeyword(ts, i) && TermBraceAt(ts, i, b)
    requires b < bad < |ts| && DirectiveLines(ts, b + 1, bad)
    requires forall m :: b < m < bad ==> ts[m] != "}"
    requires ts[bad] != "}" && !IsSkippable(ts[bad]) && !IsSigned(ts[bad])
    ensures ParseFrom(ts, i) == Failure(InvalidFieldReference(ts[bad], BodyReason))
  {
    TermStep(ts, i, b);
    BodyEntityFails(ts, b + 1, bad, true, Tokens(ts, i)[1]);
  }

  /** A term header without `{` fails with `InvalidSyntax` when the brace
      search meets a line that is not blank, not `has` and has no `{`, or
      runs out of lines. */
  lemma TermWithoutBrace(ts: seq<string>, i: nat, stop: nat)
    requires IsTermHeader(ts, i) && '{' !in ts[i]
    requires i < stop <= |ts|
    requires forall m :: i < m < stop ==> ts[m] == "" || ts[m] == "has"
    requires stop < |ts| ==> var t := ts[stop]; t != "" && t != "has" && '{' !in t
    ensures ParseFrom(ts, i) == Failure(InvalidSyntax("Expected opening brace after term " + Tokens(ts, i)[1]))
  {
    TermDispatch(ts, i);
    FindTermBraceFails(ts, i + 1, stop);
  }

  // ---------------------------------------------------------------------------
  // Struct lines

  predicate IsStructHeader(ts: seq<string>, i: nat) {
    && i < |ts|
    && |Tokens(ts, i)| > 0
    && !StartsWith(Tokens(ts, i)[0], "//")
    && Tokens(ts, i)[0] != "dictionary" && Tokens(ts, i)[0] != "import" && Tokens(ts, i)[0] != "term"
    && Tokens(ts, i)[0] !in ReservedWords
  }

  /** Any other first word is read as a struct. */
  lemma StructDispatch(ts: seq<string>, i: nat)
    requires IsStructHeader(ts, i)
    ensures ParseFrom(ts, i) == ParseStruct(ts, i)
  {
    NotSkippable(ts, i);
    assert ParseFrom(ts, i) == ParseLine(ts, i);
  }

  /** Once its `{` is found, a struct reads its body. */
  lemma StructBody(ts: seq<string>, i: nat, b: nat)
    requires IsStructHeader(ts, i) && StructBraceAt(ts, i, b)
    ensures ParseStruct(ts, i) == EntityFromBody(ts, b + 1, false, Tokens(ts, i)[0])
  {
    StructBraceFound(ts, i, b);
  }

  lemma StructStep(ts: seq<string>, i: nat, b: nat)
    requires IsStructHeader(ts, i) && StructBraceAt(ts, i, b)
    ensures ParseFrom(ts, i) == EntityFromBody(ts, b + 1, false, Tokens(ts, i)[0])
  {
    StructDispatch(ts, i);
    StructBody(ts, i, b);
  }

  /** A struct records the references of its directive lines, in order, and
      parsing resumes after its `}` line. */
  lemma StructFields(ts: seq<string>, i: nat, b: nat, k: nat)
    requires IsStructHeader(ts, i)
    requires StructBraceAt(ts, i, b) && CloseAt(ts, b + 1, k) && DirectiveLines(ts, b + 1, k)
    ensures ParseFrom(ts, i) ==
              Prepend(Struct(Tokens(ts, i)[0], ParseDirectives(Directives(ts, b + 1, k))), ParseFrom(ts, k + 1))
  {
    StructStep(ts, i, b);
    BodyEntity(ts, b + 1, k, false, Tokens(ts, i)[0]);
  }

  /** A struct whose body has a line that is not a directive fails with
      `InvalidFieldReference`. */
  lemma StructRejectsLine(ts: seq<string>, i: nat, b: nat, bad: nat)
    requires IsStructHeader(ts, i) && StructBraceAt(ts, i, b)
    requires b < bad < |ts| && DirectiveLines(ts, b + 1, bad)
    requires forall m :: b < m < bad ==> ts[m] != "}"
    requires ts[bad] != "}" && !IsSkippable(ts[bad]) && !IsSigned(ts[bad])
    ensures ParseFrom(ts, i) == Failure(InvalidFieldReference(ts[bad], BodyReason))
  {
    StructStep(ts, i, b);
    BodyEntityFails(ts, b + 1, bad, false, Tokens(ts, i)[0]);
  }

  /** A struct header with no `{` on it or on any later line fails with
      `InvalidSyntax`. */
  lemma StructWithoutBrace(ts: seq<string>, i: nat)
    requires IsStructHeader(ts, i)
    requires forall m :: i <= m < |ts| ==> '{' !in ts[m]
    ensures ParseFrom(ts, i) == Failure(InvalidSyntax("Expected opening brace after struct " + Tokens(ts, i)[0]))
  {
    StructDispatch(ts, i);
  }
}

=== FILE: pipeline.dfy ===
/** The `datalang!` pipeline end to end: a definition file is read into
    items, and each term and struct becomes a type with `String` fields.
    Reading is done by the line parser of src/types.rs; the macro's own
    token-based reader (the `syn` parser of src/lib.rs) is not part of this
    model and accepts a different language. The lemmas below describe small files
    built from a header line, one directive line per reference and a `}`. */
module Pipeline {

  import opened Wrappers
  import opened Text
  import opened Types
  import opened FieldRefs
  import opened Parser
  import opened ParserFacts
  import opened Emit

  /** Parse, then generate one type per term or struct, in file order; a
      parse error is passed on unchanged. */
  function Compile(lines: seq<string>): (r: Result<seq<TypeDef>, ParseError>)
    ensures r.Success? <==> Parse(lines).Success?
    ensures r.Failure? ==> r.error == Parse(lines).error
    ensures r.Success? ==> |r.value| == |Entities(Parse(lines).value.items)|
    ensures r.Success? ==> forall k :: 0 <= k < |r.value| ==>
              EmitItem(Entities(Parse(lines).value.items)[k]) == Some(r.value[k])
  {
    match Parse(lines)
    case Failure(e) => Failure(e)
    case Success(f) =>
      Success(EmitFile(f.items))
  }

  /** A file that parses to a single struct, or to a single term with
      references, compiles to the one type those references select. */
  lemma CompileEntity(lines: seq<string>, item: DataLangItem)
    requires item.IsEntity() && (item.Term? ==> |item.fields| > 0)
    requires Parse(lines) == Success(DataLangFile([item]))
    ensures Compile(lines) == Success([TypeDef(item.name, SelectFields(item.fields))])
  {
    var t := TypeDef(item.name, SelectFields(item.fields));
    assert EmitItem(item) == Some(t);
    assert [item][1..] == [];
    assert EmitFile([item]) == [t] + EmitFile([]);
    assert [t] + [] == [t];
  }

  /** References that are all included select their names, lower-cased. */
  lemma {:induction false} SelectIncluded(fs: seq<FieldReference>)
    requires forall k :: 0 <= k < |fs| ==> fs[k].isIncluded
    ensures SelectFields(fs) == seq(|fs|, k requires 0 <= k < |fs| => ToLower(fs[k].name))
    decreases |fs|
  {
    if |fs| > 0 {
      SelectIncluded(fs[1..]);
    }
  }

  // ---------------------------------------------------------------------------
  // Trimmed files

  /** Lines that are already trimmed read the same after trimming. */
  lemma TrimmedLines(lines: seq<string>)
    requires forall i :: 0 <= i < |lines| ==> Trimmed(lines[i])
    ensures TrimLines(lines) == lines
  {
    forall i | 0 <= i < |lines|
      ensures TrimLines(lines)[i] == lines[i]
    {
      TrimNoop(lines[i]);
    }
  }

  /** Lines that read the same once trimmed parse to what the line parser
      reads from them. */
  lemma ParseOfTrimmed(lines: seq<string>, items: seq<DataLangItem>)
    requires TrimLines(lines) == lines && ParseFrom(lines, 0) == Success(items)
    ensures Parse(lines) == Success(DataLangFile(items))
  {
  }

  lemma PrependLast(item: DataLangItem)
    ensures Prepend(item, Success([])) == Success([item])
  {
    assert [item] + [] == [item];
  }

  // ---------------------------------------------------------------------------
  // Blocks of directives

  /** The directive lines that write out `fs`, one per line. */
  function RenderAll(fs: seq<FieldReference>): (ds: seq<string>)
    ensures |ds| == |fs|
    ensures forall k :: 0 <= k < |ds| ==> IsSigned(ds[k]) && ds[k] != "}"
  {
    RenderSigned(fs);
    seq(|fs|, k requires 0 <= k < |fs| => Render(fs[k]))
  }

  /** Every directive line opens with its sign. */
  lemma RenderSigned(fs: seq<FieldReference>)
    ensures forall k :: 0 <= k < |fs| ==> IsSigned(Render(fs[k])) && Render(fs[k]) != "}"
  {
    forall k | 0 <= k < |fs|
      ensures IsSigned(Render(fs[k])) && Render(fs[k]) != "}"
    {
      var r := Render(fs[k]);
      assert r[0] == '+' || r[0] == '-';
    }
  }

  /** Reading back the directive lines written for renderable references
      gives the references. */
  lemma ParseRenderAll(fs: seq<FieldReference>)
    requires forall k :: 0 <= k < |fs| ==> Renderable(fs[k])
    ensures ParseDirectives(RenderAll(fs)) == fs
  {
    var ds := RenderAll(fs);
    forall k | 0 <= k < |fs|
      ensures ParseDirectives(ds)[k] == fs[k]
    {
      ParseDirectivesEach(ds, k);
      ParseRender(fs[k]);
    }
  }

  /** A renderable reference's directive line is a single word. */
  lemma RenderNoSpace(f: FieldReference)
    requires Renderable(f)
    ensures NoSpace(Render(f))
  {
    RenderableHasNoSpace(f);
    NoSpaceAppend(if f.isIncluded then "+" else "-", f.FullName());
  }

  /** Lines that all open with a sign are all directives, read in order. */
  lemma {:induction false} SignedLinesAreDirectives(ts: seq<string>, lo: nat, hi: nat)
    requires lo <= hi <= |ts|
    requires forall m :: lo <= m < hi ==> IsSigned(ts[m])
    ensures DirectiveLines(ts, lo, hi)
    ensures Directives(ts, lo, hi) == ts[lo..hi]
    decreases hi - lo
  {
    if lo < hi {
      SignedLinesAreDirectives(ts, lo, hi - 1);
      assert ts[hi - 1][0] != '/';
      assert ts[lo..hi] == ts[lo..hi - 1] + [ts[hi - 1]];
    }
  }

  /** A block: a header line, one directive line per reference, and a
      closing `}`. */
  function Block(header: string, fs: seq<FieldReference>): (ts: seq<string>)
    ensures |ts| == |fs| + 2
  {
    [header] + RenderAll(fs) + ["}"]
  }

  /** The middle of `[a] + b + [c]` is `b`. */
  lemma Middle<T>(a: T, b: seq<T>, c: T)
    ensures ([a] + b + [c])[1..|b| + 1] == b
    ensures forall m :: 1 <= m < |b| + 1 ==> ([a] + b + [c])[m] == b[m - 1]
  {
  }

  /** The lines between a block's header and its `}` are its directives. */
  lemma BlockBody(header: string, fs: seq<FieldReference>)
    ensures var ts := Block(header, fs);
            && CloseAt(ts, 1, |fs| + 1) && DirectiveLines(ts, 1, |fs| + 1)
            && Directives(ts, 1, |fs| + 1) == RenderAll(fs)
  {
    var ts := Block(header, fs);
    var ds := RenderAll(fs);
    Middle(header, ds, "}");
    SignedLinesAreDirectives(ts, 1, |fs| + 1);
  }

  /** The lines of a block with a trimmed header read the same once
      trimmed. */
  lemma BlockTrimmed(header: string, fs: seq<FieldReference>)
    requires Trimmed(header)
    requires forall k :: 0 <= k < |fs| ==> Renderable(fs[k])
    ensures TrimLines(Block(header, fs)) == Block(header, fs)
  {
    var ts := Block(header, fs);
    Middle(header, RenderAll(fs), "}");
    forall m | 1 <= m < |fs| + 1
      ensures Trimmed(ts[m])
    {
      RenderNoSpace(fs[m - 1]);
    }
    TrimmedLines(ts);
  }

  /** The line parser reads `term N has {`, renderable directives and `}`
      as the one composite term with exactly those references. */
  lemma CompositeTermBlock(header: string, fs: seq<FieldReference>)
    requires var w := SplitWhitespace(header); |w| > 2 && w[0] == "term" && w[2] == "has"
    requires '{' in header
    requires forall k :: 0 <= k < |fs| ==> Renderable(fs[k])
    ensures ParseFrom(Block(header, fs), 0) == Success([Term(SplitWhitespace(header)[1], fs)])
  {
    var ts := Block(header, fs);
    BlockBody(header, fs);
    assert Tokens(ts, 0) == SplitWhitespace(header);
    CompositeTermFields(ts, 0, 0, |fs| + 1);
    ParseRenderAll(fs);
    assert ParseFrom(ts, |fs| + 2) == Success([]);
    PrependLast(Term(SplitWhitespace(header)[1], fs));
  }

  /** A file that ends right after a `term N has {` line holds the term with
      no fields: its body runs to the end of the file without a `}` line. */
  lemma UnclosedTermLine(header: string)
    requires var w := SplitWhitespace(header); |w| > 2 && w[0] == "term" && w[2] == "has"
    requires '{' in header
    ensures ParseFrom([header], 0) == Success([Term(SplitWhitespace(header)[1], [])])
  {
    var ts := [header];
    assert Tokens(ts, 0) == SplitWhitespace(header);
    assert TermBraceAt(ts, 0, 0) && CloseAt(ts, 1, 1) && DirectiveLines(ts, 1, 1);
    CompositeTermFields(ts, 0, 0, 1);
    assert ParseDirectives(Directives(ts, 1, 1)) == [];
    EndOfLines(ts);
    PrependLast(Term(SplitWhitespace(header)[1], []));
  }

  /** Parse of a file whose only line is a trimmed `term N has {` gives the
      term with no fields. */
  lemma ParseUnclosedTerm(header: string)
    requires Trimmed(header) && '{' in header
    requires var w := SplitWhitespace(header); |w| > 2 && w[0] == "term" && w[2] == "has"
    ensures Parse([header]) == Success(DataLangFile([Term(SplitWhitespace(header)[1], [])]))
  {
    TrimmedLines([header]);
    UnclosedTermLine(header);
    ParseOfTrimmed([header], [Term(SplitWhitespace(header)[1], [])]);
  }

  /** The line parser reads `N {`, renderable directives and `}` as the one
      struct with exactly those references. */
  lemma StructBlock(header: string, fs: seq<FieldReference>)
    requires IsStructHeader([header], 0)
    requires '{' in header
    requires forall k :: 0 <= k < |fs| ==> Renderable(fs[k])
    ensures ParseFrom(Block(header, fs), 0) == Success([Struct(SplitWhitespace(header)[0], fs)])
  {
    var ts := Block(header, fs);
    assert Tokens(ts, 0) == Tokens([header], 0);
    BlockBody(header, fs);
    StructFields(ts, 0, 0, |fs| + 1);
    ParseRenderAll(fs);
    assert ParseFrom(ts, |fs| + 2) == Success([]);
    PrependLast(Struct(SplitWhitespace(header)[0], fs));
  }

  /** A file holding one composite term block parses to that term. */
  lemma ParseTermBlock(header: string, fs: seq<FieldReference>)
    requires Trimmed(header) && '{' in header
    requires var w := SplitWhitespace(header); |w| > 2 && w[0] == "term" && w[2] == "has"
    requires forall k :: 0 <= k < |fs| ==> Renderable(fs[k])
    ensures Parse(Block(header, fs)) == Success(DataLangFile([Term(SplitWhitespace(header)[1], fs)]))
  {
    BlockTrimmed(header, fs);
    CompositeTermBlock(header, fs);
    ParseOfTrimmed(Block(header, fs), [Term(SplitWhitespace(header)[1], fs)]);
  }

  /** A file holding one struct block parses to that struct. */
  lemma ParseStructBlock(header: string, fs: seq<FieldReference>)
    requires Trimmed(header) && '{' in header && IsStructHeader([header], 0)
    requires forall k :: 0 <= k < |fs| ==> Renderable(fs[k])
    ensures Parse(Block(header, fs)) == Success(DataLangFile([Struct(SplitWhitespace(header)[0], fs)]))
  {
    BlockTrimmed(header, fs);
    StructBlock(header, fs);
    ParseOfTrimmed(Block(header, fs), [Struct(SplitWhitespace(header)[0], fs)]);
  }

  // ---------------------------------------------------------------------------
  // Declarations and primitive terms

  /** A trimmed `dictionary N` or `import N` line. */
  predicate DeclarationText(d: string) {
    && Trimmed(d)
    && var w := SplitWhitespace(d); |w| >= 2 && IsDeclKeyword(w[0])
  }

  /** A trimmed `term N {` line without `has`. */
  predicate PrimitiveHeader(h: string) {
    && Trimmed(h) && '{' in h
    && var w := SplitWhitespace(h); |w| >= 2 && w[0] == "term" && !(|w| > 2 && w[2] == "has")
  }

  /** Three trimmed lines read as the lines themselves. */
  lemma ThreeTrimmed(ts: seq<string>)
    requires |ts| == 3 && Trimmed(ts[0]) && Trimmed(ts[1]) && Trimmed(ts[2])
    ensures TrimLines(ts) == ts
  {
    TrimmedLines(ts);
  }

  /** A declaration line records its item and parsing goes on with the next
      line. */
  lemma DeclarationAt(ts: seq<string>, i: nat)
    requires i < |ts| && DeclarationText(ts[i])
    ensures var d := Tokens(ts, i);
            ParseFrom(ts, i) == Prepend(Declared(d[0], d[1]), ParseFrom(ts, i + 1))
  {
    DeclarationLine(ts, i);
  }

  /** Line `i` is a primitive header and line `k` the first `}` after it. */
  predicate PrimitiveBlock(ts: seq<string>, i: nat, k: nat) {
    i < |ts| && PrimitiveHeader(ts[i]) && CloseAt(ts, i + 1, k)
  }

  /** A primitive header records a term without references, and parsing
      goes on after the first line that is exactly `}`. */
  lemma PrimitiveAt(ts: seq<string>, i: nat, k: nat)
    requires PrimitiveBlock(ts, i, k)
    ensures |Tokens(ts, i)| >= 2
    ensures ParseFrom(ts, i) == Prepend(Term(Tokens(ts, i)[1], []), ParseFrom(ts, k + 1))
  {
    PrimitiveTermSkipsBody(ts, i, i, k);
  }

  /** Two items read one after the other. */
  lemma PrependOne(a: DataLangItem, b: DataLangItem, r: Result<seq<DataLangItem>, ParseError>, rest: Result<seq<DataLangItem>, ParseError>)
    requires r == Prepend(a, rest) && rest == Success([b])
    ensures r == Success([a, b])
  {
    assert [a] + [b] == [a, b];
  }

  /** Nothing is left to read after the last line. */
  lemma EndOfLines(ts: seq<string>)
    ensures ParseFrom(ts, |ts|) == Success([])
  {
  }

  lemma TermThenDeclarationLines(ts: seq<string>)
    requires |ts| == 3 && PrimitiveHeader(ts[0]) && ts[1] == "}" && DeclarationText(ts[2])
    ensures var d := Tokens(ts, 2);
            ParseFrom(ts, 0) == Success([Term(Tokens(ts, 0)[1], []), Declared(d[0], d[1])])
  {
    var d := Tokens(ts, 2);
    var t := Term(Tokens(ts, 0)[1], []);
    assert ParseFrom(ts, 2) == Success([Declared(d[0], d[1])]) by {
      EndOfLines(ts);
      DeclarationAt(ts, 2);
      PrependLast(Declared(d[0], d[1]));
    }
    assert PrimitiveBlock(ts, 0, 1);
    PrimitiveAt(ts, 0, 1);
    PrependOne(t, Declared(d[0], d[1]), ParseFrom(ts, 0), ParseFrom(ts, 2));
  }

  /** A primitive term followed by `}` and then a declaration: both are
      recorded, in order. */
  lemma TermThenDeclaration(ts: seq<string>)
    requires |ts| == 3 && PrimitiveHeader(ts[0]) && ts[1] == "}" && DeclarationText(ts[2])
    ensures var d := SplitWhitespace(ts[2]);
            Parse(ts) == Success(DataLangFile([Term(SplitWhitespace(ts[0])[1], []), Declared(d[0], d[1])]))
  {
    var d := SplitWhitespace(ts[2]);
    ThreeTrimmed(ts);
    TermThenDeclarationLines(ts);
    ParseOfTrimmed(ts, [Term(SplitWhitespace(ts[0])[1], []), Declared(d[0], d[1])]);
  }

  /** A primitive term on the last two lines, closed by `}`. */
  lemma LastPrimitive(ts: seq<string>)
    requires |ts| == 3 && PrimitiveHeader(ts[1]) && ts[2] == "}"
    ensures |Tokens(ts, 1)| >= 2
    ensures ParseFrom(ts, 1) == Success([Term(Tokens(ts, 1)[1], [])])
  {
    assert PrimitiveBlock(ts, 1, 2);
    PrimitiveAt(ts, 1, 2);
    EndOfLines(ts);
    PrependLast(Term(Tokens(ts, 1)[1], []));
  }

  /** A declaration on the first line, followed by lines that read as one
      item. */
  lemma FirstDeclaration(ts: seq<string>, item: DataLangItem)
    requires |ts| > 0 && DeclarationText(ts[0]) && ParseFrom(ts, 1) == Success([item])
    ensures var d := Tokens(ts, 0);
            ParseFrom(ts, 0) == Success([Declared(d[0], d[1]), item])
  {
    var d := Tokens(ts, 0);
    DeclarationAt(ts, 0);
    PrependOne(Declared(d[0], d[1]), item, ParseFrom(ts, 0), ParseFrom(ts, 1));
  }

  lemma DeclarationThenTermLines(ts: seq<string>)
    requires |ts| == 3 && DeclarationText(ts[0]) && PrimitiveHeader(ts[1]) && ts[2] == "}"
    ensures var d := Tokens(ts, 0);
            ParseFrom(ts, 0) == Success([Declared(d[0], d[1]), Term(Tokens(ts, 1)[1], [])])
  {
    LastPrimitive(ts);
    FirstDeclaration(ts, Term(Tokens(ts, 1)[1], []));
  }

  /** A declaration followed by a primitive term closed by `}`: both are
      recorded, in order. */
  lemma DeclarationThenTerm(ts: seq<string>)
    requires |ts| == 3 && DeclarationText(ts[0]) && PrimitiveHeader(ts[1]) && ts[2] == "}"
    ensures var d := SplitWhitespace(ts[0]);
            Parse(ts) == Success(DataLangFile([Declared(d[0], d[1]), Term(SplitWhitespace(ts[1])[1], [])]))
  {
    var d := SplitWhitespace(ts[0]);
    ThreeTrimmed(ts);
    DeclarationThenTermLines(ts);
    ParseOfTrimmed(ts, [Declared(d[0], d[1]), Term(SplitWhitespace(ts[1])[1], [])]);
  }

  lemma SwallowShape(ts: seq<string>)
    requires |ts| == 3 && PrimitiveHeader(ts[0]) && ts[1] != "}" && ts[2] == "}"
    ensures PrimitiveBlock(ts, 0, 2)
  {
  }

  lemma TermSwallowsLineLines(ts: seq<string>)
    requires |ts| == 3 && PrimitiveHeader(ts[0]) && ts[1] != "}" && ts[2] == "}"
    ensures ParseFrom(ts, 0) == Success([Term(Tokens(ts, 0)[1], [])])
  {
    SwallowShape(ts);
    PrimitiveAt(ts, 0, 2);
    EndOfLines(ts);
    PrependLast(Term(Tokens(ts, 0)[1], []));
  }

  /** The `}` that closes a term must stand on a line of its own: any other
      line after the header, whatever it declares, is skipped as body. */
  lemma TermSwallowsLine(ts: seq<string>)
    requires |ts| == 3 && PrimitiveHeader(ts[0]) && Trimmed(ts[1]) && ts[1] != "}" && ts[2] == "}"
    ensures Parse(ts) == Success(DataLangFile([Term(SplitWhitespace(ts[0])[1], [])]))
  {
    ThreeTrimmed(ts);
    TermSwallowsLineLines(ts);
    ParseOfTrimmed(ts, [Term(SplitWhitespace(ts[0])[1], [])]);
  }

  // ---------------------------------------------------------------------------
  // Refused first words

  /** A one-line file whose first word is refused fails with that word and
      its suggestion. */
  lemma RefusedLine(line: string)
    requires Trimmed(line)
    requires |SplitWhitespace(line)| > 0 && SplitWhitespace(line)[0] in ReservedWords
    ensures var w := SplitWhitespace(line)[0];
            Parse([line]) == Failure(InvalidKeyword(w, Suggestion(w)))
  {
    TrimmedLines([line]);
    ReservedWordRejected([line], 0);
  }

  /** A capitalised word is neither refused, nor a keyword, nor a comment. */
  lemma CapitalWord(w: string)
    requires |w| > 0 && 'A' <= w[0] <= 'Z'
    ensures w !in ReservedWords
    ensures w != "dictionary" && w != "import" && w != "term"
    ensures !StartsWith(w, "//")
  {
    if w in ReservedWords {
      RefusedWordIsPlain(w);
    }
  }

  /** A line opening with a capitalised word starts a struct named by that
      word. */
  lemma CapitalHeader(header: string)
    requires |SplitWhitespace(header)| > 0
    requires var w := SplitWhitespace(header)[0]; |w| > 0 && 'A' <= w[0] <= 'Z'
    ensures IsStructHeader([header], 0)
  {
    assert Tokens([header], 0) == SplitWhitespace(header);
    CapitalWord(SplitWhitespace(header)[0]);
  }
}

=== FILE: queries.dfy ===
/** The read-only queries on a parsed file (`dictionaries`, `terms`,
    `structs`, `imports`, `items_by_type`, `has_item_type`, `get_fields`) and
    the fail-fast `validate` pass. */
module Queries {

  import opened Wrappers
  import opened Types

  const ItemTypes: set<string> := {"dictionary", "term", "struct", "import"}

  lemma TagIsItemType(item: DataLangItem)
    ensures item.Tag() in ItemTypes
  {
  }

  /** The items tagged `tag`, in file order. */
  function FilterTag(items: seq<DataLangItem>, tag: string): (r: seq<DataLangItem>)
    ensures |r| <= |items|
    ensures forall x :: x in r <==> x in items && x.Tag() == tag
  {
    if |items| == 0 then []
    else (if items[0].Tag() == tag then [items[0]] else []) + FilterTag(items[1..], tag)
  }

  /** Filtering distributes over concatenation, so file order is kept. */
  lemma {:induction false} FilterTagAppend(a: seq<DataLangItem>, b: seq<DataLangItem>, tag: string)
    ensures FilterTag(a + b, tag) == FilterTag(a, tag) + FilterTag(b, tag)
    decreases |a|
  {
    if |a| > 0 {
      assert (a + b)[1..] == a[1..] + b;
      FilterTagAppend(a[1..], b, tag);
    } else {
      assert a + b == b;
    }
  }

  /** `items_by_type`: the items whose kind is named `itemType`, in order.
      A type name other than the four item kinds selects nothing. */
  function ItemsByType(f: DataLangFile, itemType: string): (r: seq<DataLangItem>)
    ensures forall x :: x in r <==> x in f.items && x.Tag() == itemType
    ensures itemType !in ItemTypes ==> r == []
  {
    var r := FilterTag(f.items, itemType);
    if itemType !in ItemTypes && |r| > 0 then
      TagIsItemType(r[0]);
      r
    else
      r
  }

  /** `has_item_type`: whether some item is of the named kind. */
  function HasItemType(f: DataLangFile, itemType: string): (r: bool)
    ensures r <==> exists k :: 0 <= k < |f.items| && f.items[k].Tag() == itemType
  {
    var items := ItemsByType(f, itemType);
    if |items| > 0 then
      assert items[0] in f.items;
      true
    else
      false
  }

  /** The declared identifiers of the items tagged `tag`, in file order. */
  function Idents(items: seq<DataLangItem>, tag: string): (r: seq<string>)
    ensures |r| == |FilterTag(items, tag)|
    ensures forall k :: 0 <= k < |r| ==> r[k] == FilterTag(items, tag)[k].Ident()
  {
    if |items| == 0 then []
    else (if items[0].Tag() == tag then [items[0].Ident()] else []) + Idents(items[1..], tag)
  }

  /** The name and field references of the terms or structs tagged `tag`. */
  function Entries(items: seq<DataLangItem>, tag: string): (r: seq<(string, seq<FieldReference>)>)
    requires tag == "term" || tag == "struct"
    ensures |r| <= |items|
  {
    if |items| == 0 then []
    else (if items[0].Tag() == tag then [(items[0].name, items[0].fields)] else []) + Entries(items[1..], tag)
  }

  /** The entries are the name and field references of the items tagged
      `tag`, one for one and in order. */
  lemma {:induction false} EntriesMatchFilter(items: seq<DataLangItem>, tag: string)
    requires tag == "term" || tag == "struct"
    ensures |Entries(items, tag)| == |FilterTag(items, tag)|
    ensures forall k :: 0 <= k < |Entries(items, tag)| ==>
              FilterTag(items, tag)[k].IsEntity() &&
              Entries(items, tag)[k] == (FilterTag(items, tag)[k].name, FilterTag(items, tag)[k].fields)
    decreases |items|
  {
    if |items| > 0 {
      EntriesMatchFilter(items[1..], tag);
    }
  }

  /** `dictionaries`: the dictionary names, in file order; a name is listed
      exactly when the file declares a dictionary of that name. */
  function Dictionaries(f: DataLangFile): (r: seq<string>)
    ensures forall n :: n in r <==> Dictionary(n) in f.items
  {
    var r := Idents(f.items, "dictionary");
    DictionaryIdents(f.items);
    r
  }

  /** `imports`: the imported module names, in file order; a module is
      listed exactly when the file imports it. */
  function Imports(f: DataLangFile): (r: seq<string>)
    ensures forall m :: m in r <==> Import(m) in f.items
  {
    var r := Idents(f.items, "import");
    ImportIdents(f.items);
    r
  }

  /** `terms`: name and field references of every term, in file order; a
      pair is listed exactly when the file holds that term. */
  function Terms(f: DataLangFile): (r: seq<(string, seq<FieldReference>)>)
    ensures forall n, fs :: (n, fs) in r <==> Term(n, fs) in f.items
  {
    var r := Entries(f.items, "term");
    EntriesMembership(f.items, "term");
    r
  }

  /** `structs`: name and field references of every struct, in file order;
      a pair is listed exactly when the file holds that struct. */
  function Structs(f: DataLangFile): (r: seq<(string, seq<FieldReference>)>)
    ensures forall n, fs :: (n, fs) in r <==> Struct(n, fs) in f.items
  {
    var r := Entries(f.items, "struct");
    EntriesMembership(f.items, "struct");
    r
  }

  /** The dictionary names listed are exactly those the file declares. */
  lemma {:induction false} DictionaryIdents(items: seq<DataLangItem>)
    ensures forall n :: n in Idents(items, "dictionary") <==> Dictionary(n) in items
    decreases |items|
  {
    if |items| > 0 {
      DictionaryIdents(items[1..]);
      assert items == [items[0]] + items[1..];
    }
  }

  /** The module names listed are exactly those the file imports. */
  lemma {:induction false} ImportIdents(items: seq<DataLangItem>)
    ensures forall n :: n in Idents(items, "import") <==> Import(n) in items
    decreases |items|
  {
    if |items| > 0 {
      ImportIdents(items[1..]);
      assert items == [items[0]] + items[1..];
    }
  }

  /** For terms or structs, the pairs listed are exactly the name and
      references of the items of that kind. */
  lemma EntriesMembership(items: seq<DataLangItem>, tag: string)
    requires tag == "term" || tag == "struct"
    ensures tag == "term" ==> forall n, fs :: (n, fs) in Entries(items, tag) <==> Term(n, fs) in items
    ensures tag == "struct" ==> forall n, fs :: (n, fs) in Entries(items, tag) <==> Struct(n, fs) in items
  {
    EntriesMatchFilter(items, tag);
    var r, fl := Entries(items, tag), FilterTag(items, tag);
    forall n, fs | (n, fs) in r
      ensures tag == "term" ==> Term(n, fs) in items
      ensures tag == "struct" ==> Struct(n, fs) in items
    {
      var j :| 0 <= j < |r| && r[j] == (n, fs);
      assert fl[j] in fl;
    }
    forall n, fs | (tag == "term" && Term(n, fs) in items) || (tag == "struct" && Struct(n, fs) in items)
      ensures (n, fs) in r
    {
      var x := if tag == "term" then Term(n, fs) else Struct(n, fs);
      assert x in fl;
      var j :| 0 <= j < |fl| && fl[j] == x;
      assert r[j] == (n, fs);
    }
  }

  /** Every item is returned by exactly one of the four kind queries. */
  lemma {:induction false} KindQueriesPartition(items: seq<DataLangItem>)
    ensures |FilterTag(items, "dictionary")| + |FilterTag(items, "term")|
          + |FilterTag(items, "struct")| + |FilterTag(items, "import")| == |items|
    decreases |items|
  {
    if |items| > 0 {
      KindQueriesPartition(items[1..]);
    }
  }

  /** The four kind queries together account for every item of the file. */
  lemma QueriesCoverFile(f: DataLangFile)
    ensures |Dictionaries(f)| + |Terms(f)| + |Structs(f)| + |Imports(f)| == |f.items|
  {
    KindQueriesPartition(f.items);
    EntriesMatchFilter(f.items, "term");
    EntriesMatchFilter(f.items, "struct");
  }

  predicate IsEntityNamed(item: DataLangItem, name: string) {
    item.IsEntity() && item.name == name
  }

  /** The first position at or after `from` holding a term or struct called
      `name`. */
  function FindEntity(items: seq<DataLangItem>, name: string, from: nat): (r: Option<nat>)
    ensures r.Some? ==> from <= r.value < |items| && IsEntityNamed(items[r.value], name)
    ensures r.Some? ==> forall m :: from <= m < r.value ==> !IsEntityNamed(items[m], name)
    ensures r.None? ==> forall m :: from <= m < |items| ==> !IsEntityNamed(items[m], name)
    decreases |items| - from
  {
    if from >= |items| then None
    else if IsEntityNamed(items[from], name) then Some(from)
    else FindEntity(items, name, from + 1)
  }

  /** `get_fields`: the field references of the FIRST term or struct called
      `name`, and nothing when there is none. Dictionaries and imports never
      match, even when their name is `name`. */
  function GetFields(f: DataLangFile, name: string): (r: Option<seq<FieldReference>>)
    ensures r.None? <==> forall k :: 0 <= k < |f.items| ==> !IsEntityNamed(f.items[k], name)
    ensures r.Some? ==>
              exists k :: 0 <= k < |f.items| && IsEntityNamed(f.items[k], name) && f.items[k].fields == r.value &&
                          forall m :: 0 <= m < k ==> !IsEntityNamed(f.items[m], name)
  {
    match FindEntity(f.items, name, 0)
    case None => None
    case Some(k) => Some(f.items[k].fields)
  }

  // ---------------------------------------------------------------------------
  // Validation

  /** The error `validate` reports for an item whose identifier is empty. */
  function EmptyNameError(item: DataLangItem): ParseError {
    match item
    case Dictionary(_) => InvalidSyntax("Dictionary name cannot be empty")
    case Term(_, _) => InvalidSyntax("Term name cannot be empty")
    case Import(_) => InvalidSyntax("Import module cannot be empty")
    case Struct(_, _) => InvalidSyntax("Struct name cannot be empty")
  }

  /** Item `k` is the first one from `from` on whose identifier is empty. */
  predicate FirstEmptyAt(items: seq<DataLangItem>, from: nat, k: nat) {
    from <= k < |items| && items[k].Ident() == "" && forall m :: from <= m < k ==> items[m].Ident() != ""
  }

  /** Fail-fast validation of `items[from..]`: success exactly when every
      identifier is non-empty, otherwise the error for the first item with an
      empty one. */
  function ValidateFrom(items: seq<DataLangItem>, from: nat): (r: Result<(), ParseError>)
    ensures r.Success? <==> forall k :: from <= k < |items| ==> items[k].Ident() != ""
    ensures r.Failure? ==> exists k: nat :: FirstEmptyAt(items, from, k) && r.error == EmptyNameError(items[k])
    decreases |items| - from
  {
    if from >= |items| then Success(())
    else if items[from].Ident() == "" then
      assert FirstEmptyAt(items, from, from);
      Failure(EmptyNameError(items[from]))
    else
      FirstEmptyShift(items, from);
      ValidateFrom(items, from + 1)
  }

  /** Past an item with a non-empty identifier, the first empty one is the
      same whether the search starts at that item or just after it. */
  lemma FirstEmptyShift(items: seq<DataLangItem>, from: nat)
    requires from < |items| && items[from].Ident() != ""
    ensures forall k: nat :: FirstEmptyAt(items, from + 1, k) ==> FirstEmptyAt(items, from, k)
  {
  }

  /** `validate`. */
  function Validate(f: DataLangFile): (r: Result<(), ParseError>)
    ensures r.Success? <==> forall k :: 0 <= k < |f.items| ==> f.items[k].Ident() != ""
    ensures r.Failure? ==>
              exists k :: 0 <= k < |f.items| && f.items[k].Ident() == "" && r.error == EmptyNameError(f.items[k]) &&
                          forall m :: 0 <= m < k ==> f.items[m].Ident() != ""
  {
    ValidateFrom(f.items, 0)
  }
}

=== FILE: scenarios.dfy ===
/** Facts about the words the sample definitions are written with. Each
    sample line is its words joined by single spaces. */
module Words {

  import opened Wrappers
  import opened Text
  import opened Parser

  predicate AllTokens(ws: seq<string>) {
    forall k :: 0 <= k < |ws| ==> IsToken(ws[k])
  }

  /** A line of words joined by single spaces starts with the first word's
      first character and ends with the last word's last character. */
  lemma {:induction false} JoinEnds(ws: seq<string>)
    requires |ws| > 0 && AllTokens(ws)
    ensures |Join(ws)| > 0
    ensures Join(ws)[0] == ws[0][0]
    ensures Join(ws)[|Join(ws)| - 1] == ws[|ws| - 1][|ws[|ws| - 1]| - 1]
    decreases |ws|
  {
    if |ws| > 1 {
      JoinEnds(ws[1..]);
      var t := Join(ws[1..]);
      assert Join(ws) == ws[0] + " " + t;
      assert Join(ws)[|Join(ws)| - 1] == t[|t| - 1];
    }
  }

  /** Such a line reads the same once trimmed and splits back into its
      words; it holds a `{` when its last word is `{`. */
  lemma Line(ws: seq<string>)
    requires |ws| > 0 && AllTokens(ws)
    ensures |Join(ws)| > 0 && !IsSpace(Join(ws)[0]) && !IsSpace(Join(ws)[|Join(ws)| - 1])
    ensures SplitWhitespace(Join(ws)) == ws
    ensures "{" in ws ==> '{' in Join(ws)
  {
    JoinEnds(ws);
    SplitJoin(ws);
    if "{" in ws {
      var j :| 0 <= j < |ws| && ws[j] == "{";
      JoinHas(ws, j, '{');
    }
  }

  /** A character of any word is a character of the line. */
  lemma {:induction false} JoinHas(ws: seq<string>, j: nat, c: char)
    requires j < |ws| && c in ws[j]
    ensures c in Join(ws)
    decreases |ws|
  {
    if |ws| > 1 {
      assert Join(ws) == ws[0] + " " + Join(ws[1..]);
      if j > 0 {
        JoinHas(ws[1..], j - 1, c);
      }
    }
  }

  /** A word with no whitespace and no ':' in it. */
  predicate PlainName(w: string) {
    forall k :: 0 <= k < |w| ==> !IsSpace(w[k]) && w[k] != ':'
  }

  /** Lower-casing `s` gives `t` when it does so letter by letter. */
  lemma LowerOf(s: string, t: string)
    requires |s| == |t| && forall k :: 0 <= k < |s| ==> LowerChar(s[k]) == t[k]
    ensures ToLower(s) == t
  {
  }

  lemma LowerName()
    ensures ToLower("Name") == "name"
  {
    LowerOf("Name", "name");
  }

  lemma LowerLastName()
    ensures ToLower("LastName") == "lastname"
  {
    LowerOf("LastName", "lastname");
  }

  lemma LowerBirthDate()
    ensures ToLower("BirthDate") == "birthdate"
  {
    LowerOf("BirthDate", "birthdate");
  }

  lemma LowerHandle()
    ensures ToLower("Handle") == "handle"
  {
    LowerOf("Handle", "handle");
  }

  lemma NamesArePlain()
    ensures PlainName("Name") && PlainName("LastName") && PlainName("BirthDate") && PlainName("Handle")
  {
  }

  lemma FnReserved()
    ensures "fn" in ReservedWords && Suggestion("fn") == Some("term")
  {
  }

  lemma UseReserved()
    ensures "use" in ReservedWords && Suggestion("use") == Some("import")
  {
  }

  /** No refused word is longer than nine characters. */
  lemma ReservedWordsAreShort()
    ensures forall w :: w in ReservedWords ==> |w| <= 9
  {
  }

  lemma ContactInfoUnreserved()
    ensures "contactinfo" !in ReservedWords && !StartsWith("contactinfo", "//")
  {
    ReservedWordsAreShort();
    assert "contactinfo"[..2][0] == 'c';
  }

  lemma ImplReserved()
    ensures "impl" in ReservedWords
  {
  }

  lemma ImplUnsuggested()
    ensures Suggestion("impl") == None
  {
  }
}

/** The definitions of the repository's examples and tests
    (examples/basic_usage.rs, dirctionary_tests/tests), read with the line
    grammar of src/types.rs and compiled by `Pipeline.Compile`. Those files
    feed `datalang!`, whose `syn` reader is not part of this model. */
module Scenarios {

  import opened Wrappers
  import opened Text
  import opened Types
  import opened FieldRefs
  import opened Parser
  import opened ParserFacts
  import opened Emit
  import opened Pipeline
  import opened Words

  function Incl(w: string): FieldReference {
    FieldReference(true, None, w)
  }

  function Excl(w: string): FieldReference {
    FieldReference(false, None, w)
  }

  /** A reference to a plain name without namespace is renderable. */
  lemma PlainRenderable(f: FieldReference)
    requires f.namespace.None? && PlainName(f.name)
    ensures Renderable(f)
  {
    assert !HasSep(f.name);
  }

  // ---------------------------------------------------------------------------
  // The composite term `User`
  //
  //   term User has {
  //   +Name
  //   +LastName
  //   +BirthDate
  //   }

  const UserHeader := Join(["term", "User", "has", "{"])
  const UserRefs: seq<FieldReference> := [Incl("Name"), Incl("LastName"), Incl("BirthDate")]

  lemma UserHeaderWords()
    ensures Trimmed(UserHeader) && '{' in UserHeader
    ensures SplitWhitespace(UserHeader) == ["term", "User", "has", "{"]
  {
    assert AllTokens(["term", "User", "has", "{"]);
    Line(["term", "User", "has", "{"]);
  }

  lemma UserRefsRenderable()
    ensures forall k :: 0 <= k < |UserRefs| ==> Renderable(UserRefs[k])
  {
    NamesArePlain();
    PlainRenderable(Incl("Name"));
    PlainRenderable(Incl("LastName"));
    PlainRenderable(Incl("BirthDate"));
  }

  /** `User` parses to a term with its three included references. */
  lemma UserParses()
    ensures Parse(Block(UserHeader, UserRefs)) == Success(DataLangFile([Term("User", UserRefs)]))
  {
    UserHeaderWords();
    UserRefsRenderable();
    ParseTermBlock(UserHeader, UserRefs);
  }

  lemma UserSelected()
    ensures SelectFields(UserRefs) == ["name", "lastname", "birthdate"]
  {
    SelectIncluded(UserRefs);
    LowerName();
    LowerLastName();
    LowerBirthDate();
  }

  /** The composite term `User` gets the fields `name`, `lastname` and
      `birthdate`, in that order. */
  lemma UserFields()
    ensures Compile(Block(UserHeader, UserRefs)) == Success([TypeDef("User", ["name", "lastname", "birthdate"])])
  {
    UserParses();
    CompileEntity(Block(UserHeader, UserRefs), Term("User", UserRefs));
    UserSelected();
  }

  // ---------------------------------------------------------------------------
  // The struct `SocialMediaUser`
  //
  //   SocialMediaUser {
  //   +Name
  //   +BirthDate
  //   +Handle
  //   }

  const SocialHeader := Join(["SocialMediaUser", "{"])
  const SocialRefs: seq<FieldReference> := [Incl("Name"), Incl("BirthDate"), Incl("Handle")]

  lemma SocialHeaderWords()
    ensures Trimmed(SocialHeader) && '{' in SocialHeader
    ensures SplitWhitespace(SocialHeader) == ["SocialMediaUser", "{"]
    ensures IsStructHeader([SocialHeader], 0)
  {
    assert AllTokens(["SocialMediaUser", "{"]);
    Line(["SocialMediaUser", "{"]);
    CapitalHeader(SocialHeader);
  }

  lemma SocialRefsRenderable()
    ensures forall k :: 0 <= k < |SocialRefs| ==> Renderable(SocialRefs[k])
  {
    NamesArePlain();
    PlainRenderable(Incl("Name"));
    PlainRenderable(Incl("BirthDate"));
    PlainRenderable(Incl("Handle"));
  }

  /** `SocialMediaUser` parses to a struct with its three included
      references. */
  lemma SocialParses()
    ensures Parse(Block(SocialHeader, SocialRefs)) == Success(DataLangFile([Struct("SocialMediaUser", SocialRefs)]))
  {
    SocialHeaderWords();
    SocialRefsRenderable();
    ParseStructBlock(SocialHeader, SocialRefs);
  }

  lemma SocialSelected()
    ensures SelectFields(SocialRefs) == ["name", "birthdate", "handle"]
  {
    SelectIncluded(SocialRefs);
    LowerName();
    LowerBirthDate();
    LowerHandle();
  }

  /** The struct `SocialMediaUser` gets the fields `name`, `birthdate` and
      `handle`, in that order. */
  lemma SocialFields()
    ensures Compile(Block(SocialHeader, SocialRefs)) == Success([TypeDef("SocialMediaUser", ["name", "birthdate", "handle"])])
  {
    SocialParses();
    CompileEntity(Block(SocialHeader, SocialRefs), Struct("SocialMediaUser", SocialRefs));
    SocialSelected();
  }

  /** `User` has a `lastname` field and `SocialMediaUser` has none. */
  lemma OnlyUserHasLastName()
    ensures var r := Compile(Block(UserHeader, UserRefs));
            r.Success? && |r.value| == 1 && "lastname" in r.value[0].fields
    ensures var r := Compile(Block(SocialHeader, SocialRefs));
            r.Success? && |r.value| == 1 && "lastname" !in r.value[0].fields
  {
    UserFields();
    SocialFields();
  }

  // ---------------------------------------------------------------------------
  // A lower-case struct name
  //
  //   contactinfo {
  //   +Name
  //   }
  //
  // Any first word that is not a keyword and not refused opens a struct,
  // whatever its case.

  const ContactHeader := Join(["contactinfo", "{"])
  const ContactRefs: seq<FieldReference> := [Incl("Name")]

  lemma ContactHeaderWords()
    ensures Trimmed(ContactHeader) && '{' in ContactHeader
    ensures SplitWhitespace(ContactHeader) == ["contactinfo", "{"]
    ensures IsStructHeader([ContactHeader], 0)
  {
    assert AllTokens(["contactinfo", "{"]);
    Line(["contactinfo", "{"]);
    assert Tokens([ContactHeader], 0) == ["contactinfo", "{"];
    ContactInfoUnreserved();
  }

  lemma ContactRefsRenderable()
    ensures forall k :: 0 <= k < |ContactRefs| ==> Renderable(ContactRefs[k])
  {
    NamesArePlain();
    PlainRenderable(Incl("Name"));
  }

  /** `contactinfo { +Name }` is a struct named `contactinfo`. */
  lemma LowerCaseStruct()
    ensures Parse(Block(ContactHeader, ContactRefs)) == Success(DataLangFile([Struct("contactinfo", ContactRefs)]))
  {
    ContactHeaderWords();
    ContactRefsRenderable();
    ParseStructBlock(ContactHeader, ContactRefs);
  }

  /** A file that ends right after `term User has {` holds the term with no
      fields: the body runs to the end of the file without a `}` line. */
  lemma UnclosedTerm()
    ensures Parse([UserHeader]) == Success(DataLangFile([Term("User", [])]))
  {
    UserHeaderWords();
    ParseUnclosedTerm(UserHeader);
  }

  // ---------------------------------------------------------------------------
  // Exclusion
  //
  //   MinimalUser {
  //   +Name
  //   -LastName
  //   }

  const MinimalHeader := Join(["MinimalUser", "{"])
  const MinimalRefs: seq<FieldReference> := [Incl("Name"), Excl("LastName")]

  lemma MinimalHeaderWords()
    ensures Trimmed(MinimalHeader) && '{' in MinimalHeader
    ensures SplitWhitespace(MinimalHeader) == ["MinimalUser", "{"]
    ensures IsStructHeader([MinimalHeader], 0)
  {
    assert AllTokens(["MinimalUser", "{"]);
    Line(["MinimalUser", "{"]);
    CapitalHeader(MinimalHeader);
  }

  lemma MinimalRefsRenderable()
    ensures forall k :: 0 <= k < |MinimalRefs| ==> Renderable(MinimalRefs[k])
  {
    NamesArePlain();
    PlainRenderable(Incl("Name"));
    PlainRenderable(Excl("LastName"));
  }

  /** The excluded reference is parsed and kept in the struct. */
  lemma MinimalParses()
    ensures Parse(Block(MinimalHeader, MinimalRefs)) == Success(DataLangFile([Struct("MinimalUser", MinimalRefs)]))
  {
    MinimalHeaderWords();
    MinimalRefsRenderable();
    ParseStructBlock(MinimalHeader, MinimalRefs);
  }

  lemma MinimalSelected()
    ensures SelectFields(MinimalRefs) == ["name"]
  {
    assert MinimalRefs[1..][1..] == [];
    LowerName();
  }

  /** The excluded reference generates no field: `MinimalUser` has `name`
      only. */
  lemma MinimalFields()
    ensures Compile(Block(MinimalHeader, MinimalRefs)) == Success([TypeDef("MinimalUser", ["name"])])
  {
    MinimalParses();
    CompileEntity(Block(MinimalHeader, MinimalRefs), Struct("MinimalUser", MinimalRefs));
    MinimalSelected();
  }

  // ---------------------------------------------------------------------------
  // Refused first words

  const FnLine := Join(["fn", "main()", "{"])
  const UseLine := Join(["use", "std::fmt;"])
  const ImplLine := Join(["impl", "User", "{"])

  lemma FnLineWords()
    ensures Trimmed(FnLine) && SplitWhitespace(FnLine) == ["fn", "main()", "{"]
  {
    assert AllTokens(["fn", "main()", "{"]);
    Line(["fn", "main()", "{"]);
  }

  /** `fn main() {` is refused, with `term` suggested instead. */
  lemma FnRefused()
    ensures Parse([FnLine]) == Failure(InvalidKeyword("fn", Some("term")))
  {
    FnLineWords();
    FnReserved();
    RefusedLine(FnLine);
  }

  lemma UseLineWords()
    ensures Trimmed(UseLine) && SplitWhitespace(UseLine) == ["use", "std::fmt;"]
  {
    assert AllTokens(["use", "std::fmt;"]);
    Line(["use", "std::fmt;"]);
  }

  /** `use std::fmt;` is refused, with `import` suggested instead. */
  lemma UseRefused()
    ensures Parse([UseLine]) == Failure(InvalidKeyword("use", Some("import")))
  {
    UseLineWords();
    UseReserved();
    RefusedLine(UseLine);
  }

  lemma ImplLineWords()
    ensures Trimmed(ImplLine) && SplitWhitespace(ImplLine) == ["impl", "User", "{"]
  {
    assert AllTokens(["impl", "User", "{"]);
    Line(["impl", "User", "{"]);
  }

  /** `impl User {` is refused, with no suggestion. */
  lemma ImplRefused()
    ensures Parse([ImplLine]) == Failure(InvalidKeyword("impl", None))
  {
    ImplLineWords();
    ImplReserved();
    ImplUnsuggested();
    RefusedLine(ImplLine);
  }

  // ---------------------------------------------------------------------------
  // A primitive term and a dictionary
  //
  //   dictionary Base
  //   term Name {
  //   }

  const NameHeader := Join(["term", "Name", "{"])
  const BaseDecl := Join(["dictionary", "Base"])
  const BaseLines: seq<string> := [BaseDecl, NameHeader, "}"]

  lemma NameHeaderWords()
    ensures Trimmed(NameHeader) && '{' in NameHeader
    ensures SplitWhitespace(NameHeader) == ["term", "Name", "{"]
  {
    assert AllTokens(["term", "Name", "{"]);
    Line(["term", "Name", "{"]);
  }

  lemma BaseDeclWords()
    ensures Trimmed(BaseDecl) && SplitWhitespace(BaseDecl) == ["dictionary", "Base"]
  {
    assert AllTokens(["dictionary", "Base"]);
    Line(["dictionary", "Base"]);
  }

  /** The dictionary is recorded, and the term after it, having no `has`, is
      primitive. */
  lemma BaseParses()
    ensures Parse(BaseLines) == Success(DataLangFile([Dictionary("Base"), Term("Name", [])]))
  {
    NameHeaderWords();
    BaseDeclWords();
    DeclarationThenTerm(BaseLines);
  }

  lemma BaseEmits(items: seq<DataLangItem>)
    requires items == [Dictionary("Base"), Term("Name", [])]
    ensures EmitFile(items) == [TypeDef("Name", [ToLower("Name")])]
  {
    assert items[1..] == [Term("Name", [])];
    assert items[1..][1..] == [];
  }

  /** The primitive term `Name` generates a type with the single field
      `name`; the dictionary generates nothing. */
  lemma BaseFields()
    ensures Compile(BaseLines) == Success([TypeDef("Name", ["name"])])
  {
    BaseParses();
    BaseEmits([Dictionary("Base"), Term("Name", [])]);
    LowerName();
  }

  // ---------------------------------------------------------------------------
  // A primitive term written on one line
  //
  // The search for a term's closing `}` starts on the line after its `{`
  // and only stops at a line that is exactly `}`. A `term Name { }` written
  // on one line therefore swallows the lines after it up to the next such
  // line:
  //
  //   term Name { }
  //   dictionary Base
  //   }

  const OneLineTerm := Join(["term", "Name", "{", "}"])
  const SwallowedLines: seq<string> := [OneLineTerm, BaseDecl, "}"]

  lemma OneLineTermWords()
    ensures Trimmed(OneLineTerm) && '{' in OneLineTerm
    ensures SplitWhitespace(OneLineTerm) == ["term", "Name", "{", "}"]
  {
    assert AllTokens(["term", "Name", "{", "}"]);
    Line(["term", "Name", "{", "}"]);
  }

  /** The `dictionary Base` line is skipped as the term's body. */
  lemma OneLineSwallows()
    ensures Parse(SwallowedLines) == Success(DataLangFile([Term("Name", [])]))
  {
    OneLineTermWords();
    BaseDeclWords();
    assert BaseDecl != "}";
    TermSwallowsLine(SwallowedLines);
  }
}

=== FILE: text.dfy ===
/** The string primitives the DataLang parser relies on: `str::trim`,
    `str::split_whitespace`, `str::starts_with`, `str::split_once("::")` and
    `str::to_lowercase`, restricted to ASCII. Whitespace is the set of ASCII
    characters that Rust's `char::is_whitespace` accepts. */
module Text {

  import opened Wrappers

  predicate IsSpace(c: char) {
    c == ' ' || c == '\t' || c == '\n' || c == '\U{000B}' || c == '\U{000C}' || c == '\r'
  }

  predicate NoSpace(s: string) {
    forall k :: 0 <= k < |s| ==> !IsSpace(s[k])
  }

  predicate AllSpace(s: string) {
    forall k :: 0 <= k < |s| ==> IsSpace(s[k])
  }

  predicate StartsWith(s: string, prefix: string) {
    |prefix| <= |s| && s[..|prefix|] == prefix
  }

  /** Rust's `str::starts_with` with a `char` pattern. */
  predicate StartsWithChar(s: string, c: char) {
    |s| > 0 && s[0] == c
  }

  // ---------------------------------------------------------------------------
  // Trimming

  /** `s` without its leading whitespace. */
  function TrimStart(s: string): (r: string)
    ensures |r| <= |s| && r == s[|s| - |r|..]
    ensures forall k :: 0 <= k < |s| - |r| ==> IsSpace(s[k])
    ensures |r| > 0 ==> !IsSpace(r[0])
    decreases |s|
  {
    if |s| > 0 && IsSpace(s[0]) then
      var r := TrimStart(s[1..]);
      assert forall k :: 1 <= k < |s| ==> s[k] == s[1..][k - 1];
      r
    else
      s
  }

  /** `s` without its trailing whitespace. */
  function TrimEnd(s: string): (r: string)
    ensures |r| <= |s| && r == s[..|r|]
    ensures forall k :: |r| <= k < |s| ==> IsSpace(s[k])
    ensures |r| > 0 ==> !IsSpace(r[|r| - 1])
    decreases |s|
  {
    if |s| > 0 && IsSpace(s[|s| - 1]) then
      var r := TrimEnd(s[..|s| - 1]);
      assert forall k :: 0 <= k < |s| - 1 ==> s[k] == s[..|s| - 1][k];
      r
    else
      s
  }

  /** How many leading whitespace characters `Trim` cuts off. */
  function TrimOffset(s: string): nat {
    |s| - |TrimStart(s)|
  }

  /** Rust's `str::trim`: a slice of `s` that neither starts nor ends with
      whitespace, where everything cut off on either side is whitespace. */
  function Trim(s: string): (r: string)
    ensures TrimOffset(s) + |r| <= |s|
    ensures r == s[TrimOffset(s)..TrimOffset(s) + |r|]
    ensures forall k :: 0 <= k < TrimOffset(s) ==> IsSpace(s[k])
    ensures forall k :: TrimOffset(s) + |r| <= k < |s| ==> IsSpace(s[k])
    ensures |r| > 0 ==> !IsSpace(r[0]) && !IsSpace(r[|r| - 1])
  {
    var t := TrimStart(s);
    var r := TrimEnd(t);
    SuffixPrefix(s, t, r);
    r
  }

  /** A prefix `r` of a suffix `t` of `s` is a slice of `s`, and what follows
      it in `t` follows it in `s`. */
  lemma SuffixPrefix(s: string, t: string, r: string)
    requires |r| <= |t| <= |s| && t == s[|s| - |t|..] && r == t[..|r|]
    requires forall k :: |r| <= k < |t| ==> IsSpace(t[k])
    ensures r == s[|s| - |t|..|s| - |t| + |r|]
    ensures forall k :: |s| - |t| + |r| <= k < |s| ==> IsSpace(s[k])
  {
    var a := |s| - |t|;
    forall k | a + |r| <= k < |s|
      ensures IsSpace(s[k])
    {
      assert s[k] == t[k - a];
    }
  }

  /** A string that neither starts nor ends with whitespace is its own trim. */
  lemma TrimNoop(s: string)
    requires |s| > 0 ==> !IsSpace(s[0]) && !IsSpace(s[|s| - 1])
    ensures Trim(s) == s
  {
    assert TrimStart(s) == s;
    assert TrimEnd(s) == s;
  }

  /** Trimming keeps a first character that is not whitespace. */
  lemma TrimKeepsFirst(s: string)
    requires |s| > 0 && !IsSpace(s[0])
    ensures |Trim(s)| > 0 && Trim(s)[0] == s[0]
  {
    assert TrimStart(s) == s;
    assert TrimOffset(s) == 0;
  }

  lemma TrimNoSpace(s: string)
    requires NoSpace(s)
    ensures Trim(s) == s
  {
    TrimNoop(s);
  }

  /** Trimming is idempotent. */
  lemma TrimIdempotent(s: string)
    ensures Trim(Trim(s)) == Trim(s)
  {
    TrimNoop(Trim(s));
  }

  /** In a string that does not end in whitespace, trimming what follows the
      first character only removes whitespace at its start. */
  lemma TrimAfterFirst(s: string)
    requires |s| > 0 && !IsSpace(s[|s| - 1])
    ensures Trim(s[1..]) == TrimStart(s[1..])
  {
    var t := TrimStart(s[1..]);
    if |t| > 0 {
      assert t[|t| - 1] == s[|s| - 1];
    }
    assert TrimEnd(t) == t;
  }

  // ---------------------------------------------------------------------------
  // Splitting on whitespace

  /** The longest whitespace-free prefix of `s`. */
  function TakeWord(s: string): (w: string)
    ensures |w| <= |s| && w == s[..|w|] && NoSpace(w)
    ensures |w| < |s| ==> IsSpace(s[|w|])
  {
    if |s| == 0 || IsSpace(s[0]) then [] else [s[0]] + TakeWord(s[1..])
  }

  /** A non-empty run of non-whitespace characters. */
  predicate IsToken(w: string) {
    |w| > 0 && NoSpace(w)
  }

  /** Rust's `str::split_whitespace`: the maximal runs of non-whitespace
      characters of `s`, in order. Every token is non-empty and free of
      whitespace. */
  function SplitWhitespace(s: string): (r: seq<string>)
    ensures forall k :: 0 <= k < |r| ==> IsToken(r[k])
    decreases |s|
  {
    if |s| == 0 then
      []
    else if IsSpace(s[0]) then
      SplitWhitespace(s[1..])
    else
      var w := TakeWord(s);
      var rest := SplitWhitespace(s[|w|..]);
      assert IsToken(w);
      assert forall k :: 1 <= k < 1 + |rest| ==> ([w] + rest)[k] == rest[k - 1];
      [w] + rest
  }

  /** There are no tokens exactly when `s` is all whitespace. */
  lemma {:induction false} SplitWhitespaceEmpty(s: string)
    ensures |SplitWhitespace(s)| == 0 <==> AllSpace(s)
    decreases |s|
  {
    if |s| > 0 && IsSpace(s[0]) {
      SplitWhitespaceEmpty(s[1..]);
      assert forall k :: 1 <= k < |s| ==> s[k] == s[1..][k - 1];
    }
  }

  /** The characters of `s` that are not whitespace, in order. */
  function RemoveSpace(s: string): string {
    if |s| == 0 then []
    else if IsSpace(s[0]) then RemoveSpace(s[1..])
    else [s[0]] + RemoveSpace(s[1..])
  }

  function Concat(ws: seq<string>): string {
    if |ws| == 0 then [] else ws[0] + Concat(ws[1..])
  }

  /** Words joined by single spaces, the inverse of `SplitWhitespace`. */
  function Join(ws: seq<string>): string {
    if |ws| == 0 then []
    else if |ws| == 1 then ws[0]
    else ws[0] + " " + Join(ws[1..])
  }

  lemma {:induction false} RemoveSpaceAppend(a: string, b: string)
    ensures RemoveSpace(a + b) == RemoveSpace(a) + RemoveSpace(b)
    decreases |a|
  {
    if |a| > 0 {
      assert (a + b)[1..] == a[1..] + b;
      RemoveSpaceAppend(a[1..], b);
    } else {
      assert a + b == b;
    }
  }

  lemma {:induction false} RemoveSpaceOfAllSpace(s: string)
    requires AllSpace(s)
    ensures RemoveSpace(s) == []
    decreases |s|
  {
    if |s| > 0 {
      RemoveSpaceOfAllSpace(s[1..]);
    }
  }

  lemma {:induction false} RemoveSpaceOfNoSpace(s: string)
    requires NoSpace(s)
    ensures RemoveSpace(s) == s
    decreases |s|
  {
    if |s| > 0 {
      RemoveSpaceOfNoSpace(s[1..]);
      assert s == [s[0]] + s[1..];
    }
  }

  lemma ConcatCons(w: string, rest: seq<string>)
    ensures Concat([w] + rest) == w + Concat(rest)
  {
    assert ([w] + rest)[1..] == rest;
  }

  /** Splitting loses only whitespace: the tokens, glued back together, are
      exactly the non-whitespace characters of the input. */
  lemma {:induction false} SplitWhitespaceKeepsContent(s: string)
    ensures Concat(SplitWhitespace(s)) == RemoveSpace(s)
    decreases |s|
  {
    if |s| > 0 && IsSpace(s[0]) {
      SplitWhitespaceKeepsContent(s[1..]);
    } else if |s| > 0 {
      var w := TakeWord(s);
      var u := s[|w|..];
      assert s == w + u;
      RemoveSpaceAppend(w, u);
      RemoveSpaceOfNoSpace(w);
      SplitWhitespaceKeepsContent(u);
      ConcatCons(w, SplitWhitespace(u));
    }
  }

  lemma {:induction false} TakeWordOf(w: string, rest: string)
    requires NoSpace(w)
    requires |rest| > 0 ==> IsSpace(rest[0])
    ensures TakeWord(w + rest) == w
    decreases |w|
  {
    if |w| > 0 {
      assert (w + rest)[1..] == w[1..] + rest;
      TakeWordOf(w[1..], rest);
      assert w == [w[0]] + w[1..];
    } else {
      assert w + rest == rest;
    }
  }

  /** A word followed by whitespace contributes itself as the first token. */
  lemma SplitCons(w: string, rest: string)
    requires IsToken(w)
    requires |rest| > 0 ==> IsSpace(rest[0])
    ensures SplitWhitespace(w + rest) == [w] + SplitWhitespace(rest)
  {
    var s := w + rest;
    TakeWordOf(w, rest);
    assert s[|w|..] == rest;
    if |rest| == 0 {
      assert SplitWhitespace(rest) == [];
    }
  }

  lemma SplitJoinStep(ws: seq<string>)
    requires |ws| > 1 && IsToken(ws[0])
    ensures SplitWhitespace(Join(ws)) == [ws[0]] + SplitWhitespace(Join(ws[1..]))
  {
    var tail := Join(ws[1..]);
    var rest := " " + tail;
    assert Join(ws) == ws[0] + rest;
    SplitCons(ws[0], rest);
    assert rest[1..] == tail;
  }

  /** Splitting undoes joining with single spaces. */
  lemma {:induction false} SplitJoin(ws: seq<string>)
    requires forall k :: 0 <= k < |ws| ==> IsToken(ws[k])
    ensures SplitWhitespace(Join(ws)) == ws
    decreases |ws|
  {
    if |ws| == 1 {
      SplitCons(ws[0], []);
      assert ws[0] + [] == ws[0];
    } else if |ws| > 1 {
      SplitJoinStep(ws);
      assert forall k :: 0 <= k < |ws| - 1 ==> ws[1..][k] == ws[k + 1];
      SplitJoin(ws[1..]);
      assert [ws[0]] + ws[1..] == ws;
    }
  }

  // ---------------------------------------------------------------------------
  // Splitting on the first "::"

  predicate IsSepAt(s: string, k: int) {
    0 <= k && k + 1 < |s| && s[k] == ':' && s[k + 1] == ':'
  }

  predicate HasSep(s: string) {
    exists k :: 0 <= k < |s| && IsSepAt(s, k)
  }

  /** The first position at or after `from` where "::" starts. */
  function FindSep(s: string, from: nat): (r: Option<nat>)
    ensures r.Some? ==> from <= r.value && IsSepAt(s, r.value)
    ensures r.Some? ==> forall m :: from <= m < r.value ==> !IsSepAt(s, m)
    ensures r.None? ==> forall m :: from <= m ==> !IsSepAt(s, m)
    decreases |s| - from
  {
    if from + 1 >= |s| then None
    else if IsSepAt(s, from) then Some(from)
    else FindSep(s, from + 1)
  }

  /** Rust's `str::split_once("::")`: present exactly when `s` contains
      "::", and then the parts on either side of its FIRST occurrence. */
  function SplitOnce(s: string): (r: Option<(string, string)>)
    ensures r.Some? <==> HasSep(s)
    ensures r.Some? ==> s == r.value.0 + "::" + r.value.1
    ensures r.Some? ==> forall m :: 0 <= m < |r.value.0| ==> !IsSepAt(s, m)
  {
    match FindSep(s, 0)
    case None => None
    case Some(k) =>
      assert s == s[..k] + "::" + s[k + 2..];
      Some((s[..k], s[k + 2..]))
  }

  /** Splitting `l + "::" + r` gives back `l` and `r` when the separator
      written is the first "::" of the string. */
  lemma SplitOnceOfJoin(l: string, r: string)
    requires !HasSep(l)
    requires |l| > 0 ==> l[|l| - 1] != ':'
    ensures SplitOnce(l + "::" + r) == Some((l, r))
  {
    var s := l + "::" + r;
    assert IsSepAt(s, |l|);
    forall m | 0 <= m < |l|
      ensures !IsSepAt(s, m)
    {
      if m + 1 < |l| {
        assert !IsSepAt(l, m);
      }
    }
    assert s[..|l|] == l;
    assert s[|l| + 2..] == r;
  }

  // ---------------------------------------------------------------------------
  // Lower-casing

  function LowerChar(c: char): char {
    if 'A' <= c <= 'Z' then (c as int + 32) as char else c
  }

  /** ASCII `str::to_lowercase`: same length, each letter lowered. */
  function ToLower(s: string): (r: string)
    ensures |r| == |s|
    ensures forall k :: 0 <= k < |s| ==> r[k] == LowerChar(s[k])
  {
    if |s| == 0 then [] else [LowerChar(s[0])] + ToLower(s[1..])
  }
}

=== FILE: types.dfy ===
/** The records of the DataLang front end (src/types.rs): field references,
    the four kinds of top-level item, a parsed file and the error taxonomy. */
module Types {

  import opened Wrappers

  /** Every way parsing or validation can fail. Only `InvalidSyntax`,
      `MissingIdentifier`, `InvalidFieldReference` and `InvalidKeyword` are
      ever produced by the text parser and the validator. */
  datatype ParseError =
    | InvalidSyntax(message: string)
    | UnexpectedToken(message: string)
    | MissingIdentifier(message: string)
    | InvalidFieldReference(field: string, reason: string)
    | InvalidKeyword(keyword: string, suggestion: Option<string>)
    | StructuralError(context: string, issue: string)

  /** One composition directive: `+Name`, `-Name`, `+Ns::Name` or `-Ns::Name`. */
  datatype FieldReference = FieldReference(isIncluded: bool, namespace: Option<string>, name: string) {

    predicate IsIncluded() {
      isIncluded
    }

    /** A reference is excluded exactly when it is not included. */
    predicate IsExcluded(): (r: bool)
      ensures r <==> !IsIncluded()
    {
      !isIncluded
    }

    function FieldName(): string {
      name
    }

    /** Present exactly when the reference was written with a namespace. */
    predicate HasNamespace(): (r: bool)
      ensures r <==> namespace.Some?
    {
      namespace.Some?
    }

    /** `Ns::Name` for a namespaced reference, `Name` otherwise: the field
        name always ends it, and a namespace and "::" come before it exactly
        when there is one. */
    function FullName(): (r: string)
      ensures |r| >= |name| && r[|r| - |name|..] == name
      ensures namespace.None? ==> r == name
      ensures namespace.Some? ==>
                var ns := namespace.value;
                |r| == |ns| + 2 + |name| && r[..|ns|] == ns && r[|ns|..|ns| + 2] == "::"
    {
      match namespace
      case Some(ns) => ns + "::" + name
      case None => name
    }
  }

  /** The item kinds a DataLang file is made of. A `Term` with no fields is a
      primitive term; with fields it is a composite term. */
  datatype DataLangItem =
    | Dictionary(name: string)
    | Term(name: string, fields: seq<FieldReference>)
    | Import(moduleName: string)
    | Struct(name: string, fields: seq<FieldReference>)
  {
    /** The identifier the item declares: its name, or an import's module. */
    function Ident(): string {
      match this
      case Dictionary(n) => n
      case Term(n, _) => n
      case Import(m) => m
      case Struct(n, _) => n
    }

    /** The type string `items_by_type` matches this item against. */
    function Tag(): string {
      match this
      case Dictionary(_) => "dictionary"
      case Term(_, _) => "term"
      case Import(_) => "import"
      case Struct(_, _) => "struct"
    }

    /** Terms and structs are the items that carry field references. */
    predicate IsEntity() {
      Term? || Struct?
    }
  }

  datatype DataLangFile = DataLangFile(items: seq<DataLangItem>)
}

=== FILE: wrappers.dfy ===
/** Failure-compatible wrappers: `Option` for optional values and `Result`
    for operations that either produce a value or fail with an error. Both
    can be used with `:-`, which is how the Rust `?` operator is modelled. */
module Wrappers {

  datatype Option<+T> = None | Some(value: T) {

    predicate IsFailure() {
      None?
    }

    function PropagateFailure<U>(): Option<U>
      requires None?
    {
      None
    }

    function Extract(): T
      requires Some?
    {
      value
    }
  }

  datatype Result<+R, +E> = Success(value: R) | Failure(error: E) {

    predicate IsFailure() {
      Failure?
    }

    function PropagateFailure<U>(): Result<U, E>
      requires Failure?
    {
      Failure(error)
    }

    function Extract(): R
      requires Success?
    {
      value
    }
  }
}
